=== FILE: README.md ===
# PseudoCompiler front end in Dafny

This project models the three front-end pieces of the PseudoCompiler toy
language as pure Dafny functions and proves properties about them:

- **The character classifier and atomizer** of `lexicalAnalyzer.py`
  (`common.dfy`, `lexer.dfy`, `lexer_props.dfy`).
  - `checkType` puts every character in one of nine coarse classes.
  - `streamLine` splits the file text on `"\n"`. It scans each line with
    five flags: `first`, `previousType`, `isString`, `isFirstString` and
    `stringType`. It merges adjacent same-class characters into atoms,
    drops most whitespace and keeps the first quoted span of a line
    together.
  - The scan is a left fold of `Lexer.Step` over the characters. It runs on
    an explicit `Scanner` record that holds the five flags and the current
    line's atoms.
  - As in the code, only `first` and `isFirstString` are reset at the end of
    a line. String mode, the string's quote kind and the previous class
    carry over into the next line.
- **The LL(1) recogniser** of `Parser.py` (`parser.dfy`, `parser_props.dfy`).
  - It checks `(kind, lexeme)` tokens by recursive descent.
  - Its state is the cursor, the current token and the flat `parse_tree`
    of matched tokens.
  - It runs one program unit per `ENDLINE`-terminated stretch of tokens.
  - `consume` has no bounds check. Running off the end is the failure
    `OutOfTokens`, next to the syntax errors.
- **The AST-building parser** of `syntaxAnalyzer.py` (`syntax.dfy`,
  `syntax_props.dfy`).
  - It returns nested single-key nodes (`Program`, `Declarations`,
    `Statement`, `Factor`, …). These are modelled as a name plus a list of
    child nodes and raw tokens.
  - The original can fail to finish normally in two ways. Both are
    modelled as explicit failures:
    - `NoProgress`: a `statements` iteration that consumes nothing repeats
      in the same state, and the loop runs forever.
    - `RecursionLimit`: a `'('` that is the last token makes `factor`
      re-enter itself in the same state until Python's recursion limit
      raises `RecursionError`.

Each file's token-kind spellings are kept as written. Examples are `':='`
in `Parser.assignment_statement` next to `'OP_ASSIGNMENT'` in
`declaration_assignment`, `'('` in `Parser.factor` next to
`'DELIMITER_LEFT_P'` in `if_statement`, and the division kind
`'OP_ARITHMETIC_DIVide'`.

Behaviour of the code that the model reproduces and proves, rather than
tidies away:

- In `Parser.py`, `statement` on an identifier calls `assignment_statement`.
  That function matches the kind `':='` against the identifier itself, so
  it always raises (`ParserProofs.IdentifierStatementFails`).
  - Assignments are therefore accepted only at declaration position, as
    `IDENTIFIER OP_ASSIGNMENT expression`.
  - A unit that starts with an identifier is exactly one declaration
    (`ParserProofs.DeclarationUnit`).
- In `syntaxAnalyzer.py`, nothing advances before `program` runs, and the
  `statements` loop can only stop when no token is current. So `program`
  succeeds only from the fresh state, with an empty tree, and fails or
  diverges from every other state (`SyntaxProofs.ProgramOnlyFromStart`).
- In the atomizer:
  - Only the first quoted span of a line is kept together
    (`LexerProofs.FirstStringSpan`). A later quote on the same line is
    glued to the previous atom and closes string mode at once
    (`LexerProofs.StepLaterQuote`).
  - A quote as the first character of a line enters string mode without
    recording its quote kind, and `stringType` is never reset between
    lines. While no quote kind has been recorded earlier in the file, the
    rest of that line becomes one atom, whatever it holds
    (`LexerProofs.LineOpeningQuote`). Once a kind has been recorded, a
    later quote of that stale kind on the line closes the span instead
    (`LexerProofs.StringFromLineStart` covers lines without one).
  - Whitespace that follows whitespace outside a string is appended to the
    preceding atom instead of being dropped; the lemma shows it for a line
    with no string left open from an earlier line
    (`LexerProofs.SpaceAfterSpaceKept`). That is why the guarantee is
    "some whitespace is removed", not "all whitespace".
  - A string left open at the end of a line stays open on the next line.
    When that line holds no closing quote after its second character, its
    first character is an atom of its own and the rest of the line is a
    second atom (`LexerProofs.OpenStringCarries`).
- In `Parser.py`, `factor` on a kind other than an operand or `'('` consumes
  nothing and raises nothing, so an empty expression is accepted
  (`ParserProofs.EmptyExpression`). The unit `IDENTIFIER OP_ASSIGNMENT
  ENDLINE`, as in `x := ;`, is therefore accepted
  (`ParserProofs.EmptyAssignmentUnit`).

Other behaviour of the code that the model follows:

- Lines that yield no atoms are omitted from the result
  (`lexicalAnalyzer.py:101`), not kept as empty lists.
- `Parser.py`:
  - `program` ends by checking that the current token has kind `ENDLINE`,
    without consuming it.
  - `type` accepts `KEYWORD_INT`, `KEYWORD_DOUBLE` and `IDENTIFIER`.
- `syntaxAnalyzer.py` does not always terminate.

## Model

| member | source | states |
|---|---|---|
| Lexer.CheckType | lexicalAnalyzer.py:27-46 | every character lies in exactly one class: quotes in their own quote class, letters and `_` alpha, digits and `.` numeric, `;` end, parentheses left and right delimiters, whitespace space, anything else special |
| Lexer.Step | lexicalAnalyzer.py:69-95 | one character keeps the scanning state well-formed: afterwards the line has at least one atom, and every atom is non-empty |
| Lexer.ScanLine | lexicalAnalyzer.py:68-95 | scanning any characters keeps every atom non-empty, and a non-empty line always leaves at least one atom |
| Lexer.LineStart | lexicalAnalyzer.py:67 | each line starts from an empty atom list, which is a well-formed state; `first`, `isFirstString`, `isString`, `stringType` and `previousType` are those carried over from the previous line |
| Lexer.LineEnd | lexicalAnalyzer.py:97-98 | the end of a line sets `first` and `isFirstString` again and keeps `isString`, `stringType`, `previousType` and the atoms as they were |
| Lexer.StreamFrom | lexicalAnalyzer.py:66-101 | from a carried state, the lines give no more atom lists than there are lines, and no list is empty |
| Lexer.StreamLine | lexicalAnalyzer.py:48-101 | from the initial flags, the file gives no more atom lists than it has lines, and no list is empty |
| Lexer.SplitLines | lexicalAnalyzer.py:66 | splitting on "\n" gives at least one line, no line contains "\n", and joining the lines with "\n" gives back the text |
| LexerProofs.SplitJoin | lexicalAnalyzer.py:66 | conversely, splitting the "\n"-join of "\n"-free lines gives back those lines |
| LexerProofs.SplitLinesCount | lexicalAnalyzer.py:66 | the split has exactly one line more than the text has "\n" characters |
| LexerProofs.StepAtoms | lexicalAnalyzer.py:69-95 | one character either starts a new atom, extends the last atom, or is dropped, and it is dropped only when it is whitespace |
| LexerProofs.StepOutput | lexicalAnalyzer.py:69-95 | one character grows the atoms only at their end, and the concatenated atoms grow by exactly that character or, for dropped whitespace, by nothing |
| LexerProofs.StepFlatten | lexicalAnalyzer.py:69-95 | one character adds itself to the concatenated atoms exactly when it is kept |
| LexerProofs.AppendToLastOutput | lexicalAnalyzer.py:84-92 | popping the last atom and pushing it back extended by one character changes no other atom and adds that character to the concatenation |
| LexerProofs.AppendToLastExtends | lexicalAnalyzer.py:91-92 | re-pushing the popped atom extended by a character leaves the earlier atoms unchanged |
| LexerProofs.AppendToLastFlatten | lexicalAnalyzer.py:91-92 | re-pushing the popped atom extended by a character appends that character to the concatenation |
| LexerProofs.ScanLineAppend | lexicalAnalyzer.py:68 | scanning a concatenation is scanning the first part, then the second part from where the first left off |
| LexerProofs.ScanLineExtends | lexicalAnalyzer.py:68-95 | scanning only ever grows the atom list at its end |
| LexerProofs.ScanLineFlatten | lexicalAnalyzer.py:68-95 | scanning adds exactly the kept characters, in order, to the concatenated atoms |
| LexerProofs.KeptCharsDropOnlySpaces | lexicalAnalyzer.py:94 | the kept characters are the scanned ones with some whitespace deleted and nothing else changed |
| LexerProofs.ScanLineOutput | lexicalAnalyzer.py:68-95 | the three previous facts together for one scan |
| LexerProofs.LineScan | lexicalAnalyzer.py:67-95 | a line yields atoms exactly when it is non-empty; then every atom is non-empty, the first atom starts with the line's first character even when it is whitespace, and the atoms concatenate to the line minus some whitespace |
| LexerProofs.StepPlain | lexicalAnalyzer.py:69-95 | outside a string, a character that is neither a quote nor whitespace starts a new atom on a class change and otherwise extends the last one |
| LexerProofs.StepRun | lexicalAnalyzer.py:89-95 | such a character keeps the atoms a cut of the scanned text into maximal same-class runs |
| LexerProofs.RunExtendLast | lexicalAnalyzer.py:90-92 | a character of the last run's class extends that run, and the cut stays a maximal-run cut |
| LexerProofs.RunNewAtom | lexicalAnalyzer.py:93-95 | a character of another class starts a new run, and the cut stays a maximal-run cut |
| LexerProofs.ScanRuns | lexicalAnalyzer.py:68-95 | scanning quote-free, whitespace-free text outside a string keeps the maximal-run cut |
| LexerProofs.PlainLineRuns | lexicalAnalyzer.py:66-95 | with no string left open from earlier lines, a line with no quote and no whitespace is cut into its maximal same-class runs |
| LexerProofs.RunSplitUnique | lexicalAnalyzer.py:89-95 | a text has at most one cut into maximal same-class runs, so the cut the atomizer produces on plain lines is the only one |
| LexerProofs.QuoteFreeScan | lexicalAnalyzer.py:79-81 | quote-free text never enters string mode and leaves `isFirstString` as it was |
| LexerProofs.StepInString | lexicalAnalyzer.py:83-88 | inside a string that began earlier on the line, a character joins the open atom, and only a quote of the string's kind ends string mode |
| LexerProofs.StringBody | lexicalAnalyzer.py:83-88 | inside such a string, a run of characters other than its quote joins the open atom whole, whitespace and the other quote kind included |
| LexerProofs.StepOpensString | lexicalAnalyzer.py:79-88 | outside a string, the line's first quote after the first character records its kind and starts a new atom |
| LexerProofs.StepLaterQuote | lexicalAnalyzer.py:79-88 | after the first string of a line, a quote is appended to the last atom and string mode ends at once |
| LexerProofs.OpenedSpan | lexicalAnalyzer.py:79-88 | the opening quote and the body of the first string of a line form one new atom, with string mode still on |
| LexerProofs.FirstStringSpan | lexicalAnalyzer.py:79-88 | the first string of a line, from its quote to the next same quote, becomes exactly one new atom, and string mode ends there |
| LexerProofs.StringRest | lexicalAnalyzer.py:83-88 | inside a string that is past its first character, characters with no quote of the string's kind are appended to the open atom one by one, and every flag stays as it was |
| LexerProofs.StepStartsString | lexicalAnalyzer.py:69-75 | the first character of a line, when it is a quote or string mode is carried, becomes an atom of its own and leaves string mode on |
| LexerProofs.StepSecondInString | lexicalAnalyzer.py:83-88 | the next character of such a string starts a new atom instead of joining the first one, and clears `isFirstString` |
| LexerProofs.StringFromLineStart | lexicalAnalyzer.py:69-88 | a line that starts inside a string, or with a quote, with no quote of the string's kind after its second character, gives exactly two atoms: its first character, then the rest of the line |
| LexerProofs.LineOpeningQuote | lexicalAnalyzer.py:69-88 | while no quote kind has been recorded earlier in the file, a line that opens with a quote gives its first character and then the rest of the line as two atoms, even when the rest holds the same quote, and string mode stays on with no quote kind recorded |
| LexerProofs.CarriedStringLine | lexicalAnalyzer.py:66-98 | a line that starts inside a carried string whose quote does not appear after its second character gives exactly the atoms first character, rest of the line |
| LexerProofs.OpenStringCarries | lexicalAnalyzer.py:66-101 | when a line ends inside a string and the next line holds no closing quote of that string's kind after its second character, the next line's atom list is its first character followed by the rest of that line |
| LexerProofs.StepSpace | lexicalAnalyzer.py:89-95 | outside a string, whitespace after whitespace is appended to the last atom; after any other class it is dropped and becomes the previous class |
| LexerProofs.SpaceAfterSpaceKept | lexicalAnalyzer.py:89-95 | with no string left open from an earlier line, on a line of the form character, two whitespace, character, where neither outer character is a quote or whitespace, the second whitespace is kept inside the first atom |
| LexerProofs.RunSplitInit | lexicalAnalyzer.py:89-95 | dropping the last run of a maximal-run cut leaves a maximal-run cut of the text without that run |
| LexerProofs.FirstStringAtom | lexicalAnalyzer.py:66-98 | with no string left open from an earlier line, in a whole line, the first quote after the first character starts an atom that holds at least the span through the next same quote |
| LexerProofs.StreamFromShape | lexicalAnalyzer.py:66-101 | from any carried state, there is one atom list per non-empty line, in order, and each satisfies the per-line guarantees |
| LexerProofs.StreamLineShape | lexicalAnalyzer.py:66-101 | the result has one atom list per non-empty line, so no more lists than lines, and the number of lines is one more than the number of "\n" characters |
| LexerProofs.StreamFromNonSpace | lexicalAnalyzer.py:66-101 | from any carried state, the non-whitespace characters of all atoms are those of the joined lines, in order |
| LexerProofs.LineNonSpace | lexicalAnalyzer.py:67-101 | one line's atom list, kept or omitted, holds exactly the line's non-whitespace characters |
| LexerProofs.JoinNonSpace | lexicalAnalyzer.py:66 | the "\n" separators contribute no non-whitespace character |
| LexerProofs.StreamLineKeepsNonSpace | lexicalAnalyzer.py:66-101 | every non-whitespace character of the file survives atomization, in order, and nothing else does |
| LexerProofs.StreamFromRuns | lexicalAnalyzer.py:66-101 | for quote-free, whitespace-free lines with no open string, every atom list is the maximal-run cut of its line |
| LexerProofs.PlainTextRuns | lexicalAnalyzer.py:66-101 | in a file with no quotes and no whitespace other than line breaks, every line's atoms are a maximal-run cut of the line, so neighbouring atoms differ in class, and they equal every other such cut |
| Parser.Message | Parser.py:17-56 | each raised error's text starts with the words the code uses for it and ends with the kind found, a mismatch naming the expected kind after "Expected " |
| Parser.Consume | Parser.py:8-10 | consuming succeeds exactly while a token is left; it makes that token current and moves the cursor by one; past the end it fails with the list-index error |
| Parser.Match | Parser.py:12-17 | matching succeeds exactly on the expected kind with a token left; it appends the current token to the tree and moves the cursor by exactly one; on another kind it fails with a syntax error naming expected and found kinds |
| Parser.Expression | Parser.py:96-97 | on success the cursor never moves back, the tree grows by exactly the tokens passed over, and none of them is an `ENDLINE` |
| Parser.SimpleExpression | Parser.py:99-103 | as above, and it stops on a non-additive kind |
| Parser.SimpleTail | Parser.py:101-103 | the `+`/`-` loop stops at the first non-additive kind, does nothing when it starts on one, and an iteration that runs consumes at least one token; `ParserProofs.AdditiveTail` shows one iteration accepted |
| Parser.Term | Parser.py:105-109 | the cursor moves only forward over matched tokens, and the term stops on a non-multiplicative kind |
| Parser.TermTail | Parser.py:107-109 | the `*`/`/` loop stops at the first non-multiplicative kind, does nothing when it starts on one, and an iteration that runs consumes at least one token; `ParserProofs.MultiplicativeTail` shows one iteration accepted |
| Parser.Factor | Parser.py:111-119 | an identifier or numeric literal is exactly one matched token; any kind other than those and `'('` is accepted without consuming anything; `ParserProofs.ParenthesisAccepts` gives the exact condition for `'('` |
| Parser.Condition | Parser.py:131-133 | the cursor moves only forward over matched, non-`ENDLINE` tokens; `ParserProofs.OperandCondition` and `ParserProofs.ComparisonCondition` show both forms accepted |
| Parser.RelationalExpression | Parser.py:135-139 | without a `>=` operator it is exactly an expression, and the cursor moves only forward; `ParserProofs.ComparisonCondition` shows `operand >= operand` accepted |
| Parser.VarType | Parser.py:50-56 | it succeeds exactly on `KEYWORD_INT`, `KEYWORD_DOUBLE` or `IDENTIFIER` with a token left, consuming one token; any other kind raises an invalid-type error |
| Parser.AssignmentStatement | Parser.py:45-48 | it fails with a `':='` mismatch on any current kind other than `':='`, and otherwise consumes at least one token |
| Parser.OutputParams | Parser.py:76-84 | a current string literal is matched as one token; the cursor moves only forward |
| Parser.OutputStatement | Parser.py:71-74 | it succeeds only on `KEYWORD_OUTPUT` followed by `OP_LEFTSHIFT`, consuming at least those two tokens; `ParserProofs.OutputStatementAccepts` gives the exact condition |
| Parser.Statement | Parser.py:63-69 | on a statement-starting kind a successful statement consumes at least one token; on any other kind it does nothing |
| Parser.IfStatement | Parser.py:87-94 | it succeeds only on `KEYWORD_IF` followed by `DELIMITER_LEFT_P`, consuming at least three tokens; `ParserProofs.IfStatementAccepts` gives the exact condition |
| Parser.Statements | Parser.py:59-61 | the loop stops exactly on a kind that starts no statement, and the cursor moves only forward |
| Parser.DeclarationAssignment | Parser.py:32-43 | it succeeds only on an identifier and consumes at least two tokens; `ParserProofs.DeclarationColonAccepts` and `ParserProofs.DeclarationAssignmentBranch` give the exact condition |
| Parser.Declarations | Parser.py:26-30 | on normal return the current kind is not `IDENTIFIER`; the loop does nothing when it does not start on one |
| Parser.Program | Parser.py:19-24 | a successful unit ends on a current `ENDLINE` that it has not consumed, and it consumed no `ENDLINE` before it |
| Parser.ParseUnits | Parser.py:121-129 | the `parse` loop returns only with the cursor at the end of the tokens, an empty tree and a current `ENDLINE` |
| Parser.Parse | Parser.py:121-129 | a successful parse consumed every token, clears the tree, and the last token is an `ENDLINE` |
| ParserProofs.DeclarationsAtMostOnce | Parser.py:26-30 | after a declaration the current kind must be `ENDLINE` or a syntax error is raised, so the declarations loop body runs at most once |
| ParserProofs.IdentifierStatementFails | Parser.py:63-65 | a statement, and so the statements loop, that starts on an identifier always fails with a `':='` mismatch |
| ParserProofs.ProgramEndsAtFirstEndline | Parser.py:19-24 | a successful unit passes over exactly the tokens before the first `ENDLINE` from its start, records exactly them in the tree, and stops on that `ENDLINE` |
| ParserProofs.DeclarationUnit | Parser.py:19-30 | a unit that starts with an identifier is exactly one declaration; the statements after it are never reached |
| ParserProofs.ParseEmpty | Parser.py:121-124 | an empty token list fails on the first `consume` |
| ParserProofs.ParseUnitsSplit | Parser.py:121-129 | a successful parse cuts the tokens at `ENDLINE`s: each unit runs to the first `ENDLINE` after its start, and the parse continues right after it unless that is the last token |
| ParserProofs.MatchedIsMatch | Parser.py:12-17 | matching the current token's own kind always succeeds: it records that token and makes the next one current |
| ParserProofs.DeclarationColonAccepts | Parser.py:32-56 | a declaration without `OP_ASSIGNMENT` succeeds exactly on `IDENTIFIER OP_COLON type` with a token after the type; it then records those three tokens, and otherwise it fails with the colon mismatch, the invalid-type error or the index error |
| ParserProofs.DeclarationAssignmentBranch | Parser.py:32-41 | a declaration with `OP_ASSIGNMENT` after the identifier is exactly an expression parsed after those two tokens, or the index error when nothing follows them |
| ParserProofs.OutputStatementAccepts | Parser.py:71-84 | an output statement succeeds exactly on `KEYWORD_OUTPUT OP_LEFTSHIFT` followed by accepted output parameters, and then it is those parameters' result; another current kind is a `KEYWORD_OUTPUT` mismatch |
| ParserProofs.IfStatementAccepts | Parser.py:87-94 | an if statement succeeds exactly when its condition succeeds, stops on `)` with a token left, and the statement after it succeeds; a failing condition's error is passed on and another stop kind is a `)` mismatch |
| ParserProofs.OperandExpression | Parser.py:96-119 | an identifier or number followed by a kind that is not an operator is a whole expression of one matched token |
| ParserProofs.DeclarationLineUnit | Parser.py:19-56 | a unit `IDENTIFIER OP_COLON type ENDLINE` is accepted and stops on its `ENDLINE` |
| ParserProofs.AssignmentLineUnit | Parser.py:19-43 | a unit `IDENTIFIER OP_ASSIGNMENT operand ENDLINE` is accepted and stops on its `ENDLINE` |
| ParserProofs.OutputLineUnit | Parser.py:19-84 | a unit `KEYWORD_OUTPUT OP_LEFTSHIFT operand-or-string ENDLINE` is accepted and stops on its `ENDLINE` |
| ParserProofs.EmptyExpression | Parser.py:111-119 | on a current kind that is no operand, no `'('` and no arithmetic operator, an expression succeeds and changes nothing |
| ParserProofs.AdditiveTail | Parser.py:99-103 | one `+`/`-` iteration with an operand after the operator and a non-operator after that matches exactly those two tokens and stops |
| ParserProofs.MultiplicativeTail | Parser.py:105-109 | one `*`/`/` iteration with an operand after the operator and a non-operator after that matches exactly those two tokens and stops |
| ParserProofs.BinaryExpression | Parser.py:96-119 | `operand operator operand` followed by a non-operator is a whole expression of exactly those three matched tokens |
| ParserProofs.ParenthesisAccepts | Parser.py:111-119 | a factor on `'('` succeeds exactly when the expression after it succeeds and stops on `)` with a token left, and then it matches through that `)`; with no token after `'('` it is the index error |
| ParserProofs.ParenthesisedOperand | Parser.py:111-119 | `'(' operand ')'` with a token after it is one factor of exactly those three matched tokens |
| ParserProofs.OperandCondition | Parser.py:131-139 | an operand followed by a kind that is neither an operator nor `>=` is a whole condition of one matched token |
| ParserProofs.ComparisonCondition | Parser.py:131-139 | `operand >= operand` followed by a non-operator is a whole condition of exactly those three matched tokens |
| ParserProofs.OutputStatementAt | Parser.py:71-84 | `KEYWORD_OUTPUT OP_LEFTSHIFT` and a string or operand, followed by a non-operator, is a whole output statement of exactly those three tokens |
| ParserProofs.BinaryAssignmentUnit | Parser.py:19-56 | a unit `IDENTIFIER OP_ASSIGNMENT operand operator operand ENDLINE` is accepted and stops on its `ENDLINE` |
| ParserProofs.IfGuardAt | Parser.py:87-94 | after `KEYWORD_IF ( operand >= operand )` the if statement is exactly the statement that follows the `)` |
| ParserProofs.IfStatementAt | Parser.py:87-94 | `KEYWORD_IF ( operand >= operand ) KEYWORD_OUTPUT << operand-or-string` is an if statement of exactly those nine tokens |
| ParserProofs.IfLineUnit | Parser.py:19-94 | a ten-token unit made of that if statement and an `ENDLINE` is accepted and stops on its `ENDLINE` |
| ParserProofs.EmptyAssignmentUnit | Parser.py:19-56 | a unit `IDENTIFIER OP_ASSIGNMENT ENDLINE`, an assignment with an empty expression, is accepted |
| ParserProofs.UnitProgram | Parser.py:19-129 | every line of one of the recognised shapes is an accepted unit that stops on its own `ENDLINE` |
| ParserProofs.ParseUnitsAfter | Parser.py:121-129 | after an accepted unit the parse loop either ends at the last token with an empty tree or goes on right after the unit |
| ParserProofs.SimpleUnitsParse | Parser.py:121-129 | from any position where the rest of the tokens is a series of recognised lines (four-token declarations, assignments and outputs, six-token binary assignments, ten-token if lines), the parse loop succeeds and consumes them all |
| ParserProofs.SimpleProgramParses | Parser.py:121-129 | every token list made of such lines is accepted as a whole |
| ParserProofs.UnitsCons | Parser.py:121-129 | putting a recognised line in front of a series of recognised lines gives a series of recognised lines |
| ParserProofs.SampleProgramParses | Parser.py:141-156 | the tokens of the sample program in the file, declarations, assignments, a sum, two outputs and an if line, are accepted |
| ParserProofs.SingleDeclarationParses | Parser.py:121-129 | the tokens of `x : integer ;` are accepted |
| Syntax.Message | syntaxAnalyzer.py:12-19 | an error's text starts with "Syntax Error: " exactly when it is a syntax error, and a mismatch reads "Expected" with the expected kind, then ", found" with the kind found |
| Syntax.Advance | syntaxAnalyzer.py:7-10 | advancing moves to the next token while one is left; at the end it changes nothing, so the current token stays the last one and the cursor stays within the tokens |
| Syntax.Match | syntaxAnalyzer.py:15-19 | matching succeeds exactly when a current token has the expected kind, and then advances; otherwise it raises a syntax error naming expected and found kinds, or fails on the missing current token |
| Syntax.Expression | syntaxAnalyzer.py:95-96 | the result is a `Factor` node and the cursor moves only forward |
| Syntax.SimpleExpression | syntaxAnalyzer.py:98-99 | the result is a `Factor` node and the cursor moves only forward |
| Syntax.Term | syntaxAnalyzer.py:101-102 | the result is a `Factor` node and the cursor moves only forward |
| Syntax.Factor | syntaxAnalyzer.py:104-116 | an identifier or numeric literal gives a node holding exactly that token, after one advance; `'('` gives a node whose only child is the parsed expression's node, and a final `'('` is the `RecursionLimit` failure; any other kind gives an empty node and consumes nothing |
| Syntax.AssignmentStatement | syntaxAnalyzer.py:58-64 | it fails unless the current kind is `IDENTIFIER`; a success consumes tokens and holds exactly one child, a `Factor` node |
| Syntax.OutputParams | syntaxAnalyzer.py:74-81 | with no current token it fails; a current string literal becomes the node's only item, after one advance; otherwise it succeeds exactly when the expression does, and its only item is that expression's node, ending where the expression ends |
| Syntax.OutputStatement | syntaxAnalyzer.py:66-72 | it fails unless the current kind is `KEYWORD_OUTPUT`; a success consumes tokens and holds exactly one child, an `OutputParams` node |
| Syntax.Statement | syntaxAnalyzer.py:48-56 | on a statement-starting kind a success consumes tokens and holds one child, the node named after that kind's statement; on any other kind it is an empty `Statement` node that consumes nothing |
| Syntax.IfStatement | syntaxAnalyzer.py:83-90 | a success holds exactly two children, the condition `Factor` and then the nested `Statement`; `SyntaxProofs.IfBuilds` gives the exact condition |
| Syntax.StatementItems | syntaxAnalyzer.py:42-46 | the loop returns normally only when no token is current at its start, with no items |
| Syntax.Statements | syntaxAnalyzer.py:42-46 | it succeeds exactly when no token is current, giving an empty `Statements` node |
| Syntax.Declaration | syntaxAnalyzer.py:33-40 | a success consumes at least three tokens and holds exactly one token, of kind `KEYWORD_INT` |
| Syntax.DeclarationItems | syntaxAnalyzer.py:27-31 | the loop stops on a state whose current kind is not `IDENTIFIER`; every item is a declaration node holding one `KEYWORD_INT` token |
| Syntax.Declarations | syntaxAnalyzer.py:27-31 | as above, wrapped in a `Declarations` node; with no current token it is empty |
| Syntax.Program | syntaxAnalyzer.py:21-25 | a success is a `Program` node with exactly two children, `Declarations` then `Statements` |
| SyntaxProofs.DeclarationAccepts | syntaxAnalyzer.py:33-40 | a declaration succeeds exactly on `IDENTIFIER ':' KEYWORD_INT ENDLINE`; its node holds exactly the type token, and the cursor ends past the `ENDLINE`, or on it when it is the last token |
| SyntaxProofs.ExpressionIsFactor | syntaxAnalyzer.py:95-102 | expression, simple expression and term each parse exactly one factor |
| SyntaxProofs.ParenthesisAtEnd | syntaxAnalyzer.py:112-115 | a `'('` that is the last token makes `factor` re-enter itself in the same state forever |
| SyntaxProofs.StatementsSpin | syntaxAnalyzer.py:42-56 | a current kind that starts no statement makes the statements loop repeat forever in the same state |
| SyntaxProofs.AssignmentBuilds | syntaxAnalyzer.py:58-64 | after the identifier, an assignment succeeds exactly when `:=` follows, then a factor, then `;`, and its node holds exactly that factor |
| SyntaxProofs.OutputBuilds | syntaxAnalyzer.py:66-81 | after the keyword, an output statement succeeds exactly when `<<` follows, then accepted output parameters, then `;`, and its node holds exactly those parameters |
| SyntaxProofs.IfBuilds | syntaxAnalyzer.py:83-90 | after the keyword, an if statement succeeds exactly when the kind `'('` follows, then an expression, then the kind `')'`, then a statement; its node holds exactly that expression's and that statement's nodes, and every failure is passed on |
| SyntaxProofs.ParenthesisBuilds | syntaxAnalyzer.py:104-116 | a factor on `'('` with a token after it succeeds exactly when the expression after it succeeds and stops on `)`; its node holds exactly that expression's node and the cursor ends past the `)` |
| SyntaxProofs.StatementDispatch | syntaxAnalyzer.py:48-56 | a statement on a starting kind succeeds exactly when the dispatched statement does; it then wraps exactly that node and otherwise passes its error on |
| SyntaxProofs.StalledStatementRepeats | syntaxAnalyzer.py:42-56 | a statement that succeeds without moving the cursor leaves the state unchanged, so the loop repeats forever and is the `NoProgress` failure |
| SyntaxProofs.ProgramOnlyFromStart | syntaxAnalyzer.py:21-46 | a program succeeds exactly from the fresh state, and then it is the empty `Program` with empty `Declarations` and `Statements` |

## Left out

- File reading in the lexer's constructor, and every `print` call. The
  atomizer is a function of the file text. The debug output of both parsers
  has no counterpart.
- `tokenize` is an empty stub, and `symbol_table` is never filled; neither
  is modelled. `main.py` is glue that calls a method the lexer does not
  define, so it is not part of this model.
- Lexer.CheckType: `isalpha`, `isdigit` and `isspace` are modelled on ASCII
  only, because Unicode's character tables are not part of this model.
  The space class holds the ASCII characters Python counts as whitespace.
  A non-ASCII letter, digit or space classifies as special here.
- Python's exception objects: every raised error is a variant of a failure
  datatype. The `Message` functions give the text of the syntax errors.
  For `IndexError`, `TypeError` and `RecursionError` they give the text
  Python shows ("list index out of range", "'NoneType' object is not
  subscriptable", "maximum recursion depth exceeded"); the exception
  classes themselves are not modelled. The `NoProgress` text "statements
  loop does not terminate" is the model's own, because the original never
  returns in that case and so shows no message.
- Stack depth: both parsers recurse once per nested parenthesis or `if`.
  Python's recursion limit on deeply nested but finite input is not
  modelled. `RecursionLimit` stands only for the unbounded re-entry at a
  final `'('`.
- Syntax.Factor: `RecursionLimit` replaces the endless re-entry at a final
  `'('`. The original recurses until Python's recursion limit raises; the
  model stops after one re-entry.
- Syntax.StatementItems: `NoProgress` replaces a loop that runs forever. The
  original never returns in that case; the model returns this failure
  instead.
- Parser state before the first `consume`, and calling `parse` twice on one
  parser: the model starts every parse from a freshly constructed parser.

=== FILE: common.dfy ===
/**
 * Shared vocabulary of the front end: an optional value, a success/failure
 * result usable with `:-`, and the `(kind, lexeme)` token pairs that both
 * parsers read.
 */
module Common {

  /** A value that may be missing; Python's `None` for the lexer's state fields. */
  datatype Option<+T> = None | Some(value: T)

  /** Either a value or the error that stopped the computation. */
  datatype Result<+T, +E> = Ok(value: T) | Err(error: E) {

    predicate IsFailure() {
      Err?
    }

    function PropagateFailure<U>(): Result<U, E>
      requires Err?
    {
      Err(error)
    }

    function Extract(): T
      requires Ok?
    {
      value
    }
  }

  /**
   * A token as the parsers see it: a pair whose first component (index 0 of
   * the Python tuple) is the kind and whose second is the text.
   */
  datatype Token = Token(kind: string, lexeme: string)

  /** `p` is a prefix of `s`. */
  predicate StartsWith(s: string, p: string) {
    |p| <= |s| && s[..|p|] == p
  }

  /** `q` is a suffix of `s`. */
  predicate EndsWith(s: string, q: string) {
    |q| <= |s| && s[|s| - |q|..] == q
  }

  /** Strings whose first characters differ do not share a prefix. */
  lemma FirstCharDiffers(s: string, p: string)
    requires |s| > 0 && |p| > 0 && s[0] != p[0]
    ensures !StartsWith(s, p)
  {
    if |p| <= |s| {
      assert s[..|p|][0] != p[0];
    }
  }
}

=== FILE: lexer.dfy ===
/**
 * The character classifier and the atomizer of the lexical analyzer.
 *
 * `CheckType` maps one character to a coarse class. `StreamLine` splits the
 * file text on "\n" and folds over the characters of each line with an
 * explicit `Scanner` record holding the five flags of the original loop,
 * merging adjacent same-class characters into atoms, dropping most
 * whitespace and keeping quoted spans together. As in the original, only
 * `first` and `isFirstString` are reset at the end of each line; `isString`,
 * `stringType` and `previousType` carry over into the next line.
 */
module Lexer {
  import opened Common

  /** The coarse character classes, in the order of the original enum. */
  datatype CharType =
    | Alpha
    | Numeric
    | Special
    | StringAp
    | StringQt
    | DelLeft
    | DelRight
    | Space
    | End

  predicate IsLetter(c: char) {
    'a' <= c <= 'z' || 'A' <= c <= 'Z'
  }

  predicate IsDigit(c: char) {
    '0' <= c <= '9'
  }

  /** The ASCII characters for which Python's `str.isspace` holds. */
  predicate IsWhitespace(c: char) {
    c == ' ' || '\t' <= c <= '\r' || '\U{1C}' <= c <= '\U{1F}'
  }

  /**
   * Membership of a character in a class, stated class by class and
   * independently of the order in which `CheckType` tests them.
   */
  predicate Belongs(c: char, t: CharType) {
    match t
    case StringAp => c == '\''
    case StringQt => c == '"'
    case Alpha => IsLetter(c) || c == '_'
    case Numeric => IsDigit(c) || c == '.'
    case End => c == ';'
    case DelLeft => c == '('
    case DelRight => c == ')'
    case Space => IsWhitespace(c)
    case Special =>
      !(c == '\'' || c == '"' || IsLetter(c) || c == '_' || IsDigit(c) || c == '.'
        || c == ';' || c == '(' || c == ')' || IsWhitespace(c))
  }

  /** Classifies one character; every character lies in exactly one class. */
  function CheckType(c: char): (r: CharType)
    ensures forall t :: Belongs(c, t) <==> t == r
  {
    if c == '\'' then StringAp
    else if c == '"' then StringQt
    else if IsLetter(c) || c == '_' then Alpha
    else if IsDigit(c) || c == '.' then Numeric
    else if c == ';' then End
    else if c == '(' then DelLeft
    else if c == ')' then DelRight
    else if IsWhitespace(c) then Space
    else Special
  }

  predicate IsQuote(t: CharType) {
    t == StringAp || t == StringQt
  }

  /**
   * The scanning state: the five flags of the original loop plus the atoms
   * collected so far on the current line (`tempList`).
   */
  datatype Scanner = Scanner(
    first: bool,
    previousType: Option<CharType>,
    isString: bool,
    isFirstString: bool,
    stringType: Option<CharType>,
    atoms: seq<string>)

  /** The state before the first character of the file. */
  const Initial := Scanner(true, None, false, true, None, [])

  /**
   * Well-formed mid-line state: the first character of a line is always
   * stored, so `first` holds exactly when no atom has been collected yet,
   * and every atom is non-empty.
   */
  predicate Valid(st: Scanner) {
    && (st.first <==> |st.atoms| == 0)
    && forall i :: 0 <= i < |st.atoms| ==> |st.atoms[i]| > 0
  }

  /** `tempList.pop()` followed by appending the popped atom extended by `c`. */
  function AppendToLast(atoms: seq<string>, c: char): seq<string>
    requires |atoms| > 0
  {
    atoms[..|atoms| - 1] + [atoms[|atoms| - 1] + [c]]
  }

  /** Concatenation of a sequence of atoms. */
  function Flatten(atoms: seq<string>): string
  {
    if |atoms| == 0 then [] else Flatten(atoms[..|atoms| - 1]) + atoms[|atoms| - 1]
  }

  /**
   * `b` grows out of `a` only at its end: the atoms of `a` other than the
   * last are unchanged in `b`, and the last atom of `a` is a prefix of the
   * atom at the same position of `b`.
   */
  predicate Extends(a: seq<string>, b: seq<string>) {
    && |a| <= |b|
    && (forall i :: 0 <= i < |a| - 1 ==> b[i] == a[i])
    && (|a| > 0 ==> a[|a| - 1] <= b[|a| - 1])
  }

  /** Whether processing `c` in state `st` stores `c` in some atom. */
  predicate Kept(st: Scanner, c: char) {
    var t := CheckType(c);
    st.first || st.isString || Some(t) == st.previousType || t != Space
  }

  /** One iteration of the inner `for char in line` loop. */
  function Step(st: Scanner, c: char): (r: Scanner)
    requires Valid(st)
    ensures Valid(r) && !r.first
  {
    var t := CheckType(c);
    if st.first then
      // The first character of a line is stored whatever its class; a quote
      // here enters string mode without recording the string's quote kind.
      st.(first := false, previousType := Some(t),
          isString := st.isString || IsQuote(t), atoms := st.atoms + [[c]])
    else
      var opens := IsQuote(t) && !st.isString;
      var isString := st.isString || opens;
      var stringType := if opens then Some(t) else st.stringType;
      if isString then
        var atoms := if st.isFirstString then st.atoms + [[c]] else AppendToLast(st.atoms, c);
        var closes := Some(t) == stringType && !st.isFirstString;
        st.(isString := !closes, isFirstString := false, stringType := stringType, atoms := atoms)
      else if Some(t) == st.previousType then
        st.(atoms := AppendToLast(st.atoms, c))
      else
        st.(atoms := if t != Space then st.atoms + [[c]] else st.atoms, previousType := Some(t))
  }

  /** Processes the characters `cs` in order. */
  function ScanLine(st: Scanner, cs: string): (r: Scanner)
    requires Valid(st)
    ensures Valid(r)
    ensures |cs| > 0 ==> !r.first
    decreases |cs|
  {
    if |cs| == 0 then st else ScanLine(Step(st, cs[0]), cs[1..])
  }

  /** The characters of `cs` that processing from `st` stores, in order. */
  function KeptChars(st: Scanner, cs: string): string
    requires Valid(st)
    decreases |cs|
  {
    if |cs| == 0 then []
    else (if Kept(st, cs[0]) then [cs[0]] else []) + KeptChars(Step(st, cs[0]), cs[1..])
  }

  /** The state in which a line begins: a fresh `tempList`, other flags carried. */
  function LineStart(carry: Scanner): (r: Scanner)
    requires carry.first
    ensures Valid(r) && r.atoms == []
    ensures r.first && r.isFirstString == carry.isFirstString
    ensures r.isString == carry.isString && r.stringType == carry.stringType
    ensures r.previousType == carry.previousType
  {
    carry.(atoms := [])
  }

  /**
   * The per-line reset after the inner loop: only `first` and
   * `isFirstString` are reset; string mode, the string's quote kind, the
   * previous class and the line's atoms are left as they are.
   */
  function LineEnd(st: Scanner): (r: Scanner)
    ensures r.first && r.isFirstString
    ensures r.isString == st.isString && r.stringType == st.stringType
    ensures r.previousType == st.previousType && r.atoms == st.atoms
  {
    st.(first := true, isFirstString := true)
  }

  /** Joins lines with "\n" between them, the inverse of `SplitLines`. */
  function Join(lines: seq<string>): string
    requires |lines| > 0
  {
    if |lines| == 1 then lines[0] else lines[0] + "\n" + Join(lines[1..])
  }

  /** Position of the first "\n" in `s`. */
  function FirstNewline(s: string): (i: nat)
    requires '\n' in s
    ensures i < |s| && s[i] == '\n' && '\n' !in s[..i]
  {
    if s[0] == '\n' then 0 else 1 + FirstNewline(s[1..])
  }

  /** Python's `s.split("\n")`. */
  function SplitLines(s: string): (lines: seq<string>)
    ensures |lines| > 0
    ensures forall i :: 0 <= i < |lines| ==> '\n' !in lines[i]
    ensures Join(lines) == s
    decreases |s|
  {
    if '\n' !in s then [s]
    else
      var i := FirstNewline(s);
      assert s == s[..i] + "\n" + s[i + 1..];
      [s[..i]] + SplitLines(s[i + 1..])
  }

  /**
   * The outer loop from a carried state: each line's atoms, with the lines
   * that yield no atoms left out.
   */
  function StreamFrom(carry: Scanner, lines: seq<string>): (r: seq<seq<string>>)
    requires carry.first
    ensures |r| <= |lines|
    ensures forall k :: 0 <= k < |r| ==> |r[k]| > 0
    decreases |lines|
  {
    if |lines| == 0 then []
    else
      var st := ScanLine(LineStart(carry), lines[0]);
      (if |st.atoms| > 0 then [st.atoms] else []) + StreamFrom(LineEnd(st), lines[1..])
  }

  /** The atoms of every line of the file text that yields any. */
  function StreamLine(text: string): (r: seq<seq<string>>)
    ensures |r| <= |SplitLines(text)|
    ensures forall k :: 0 <= k < |r| ==> |r[k]| > 0
  {
    StreamFrom(Initial, SplitLines(text))
  }
}

=== FILE: lexer_props.dfy ===
/**
 * What the atomizer guarantees: atoms are non-empty, the first character of
 * every line is kept, only whitespace is ever dropped, plain lines are cut
 * into their maximal same-class runs, the first quoted span of a line starts
 * an atom of its own, and the "\n" split is undone by joining.
 */
module LexerProofs {
  import opened Common
  import opened Lexer

  // ---------------------------------------------------------------------
  // Reference definitions
  // ---------------------------------------------------------------------

  /** `dst` is `src` with some whitespace-class characters deleted. */
  predicate DropsOnlySpaces(src: string, dst: string)
    decreases |src|
  {
    if |src| == 0 then |dst| == 0
    else
      || (|dst| > 0 && dst[0] == src[0] && DropsOnlySpaces(src[1..], dst[1..]))
      || (CheckType(src[0]) == Space && DropsOnlySpaces(src[1..], dst))
  }

  /** The characters of `s` that are not whitespace, in order. */
  function NonSpace(s: string): string
    decreases |s|
  {
    if |s| == 0 then []
    else (if CheckType(s[0]) == Space then [] else [s[0]]) + NonSpace(s[1..])
  }

  /** Every character of `a` has the class of its first character. */
  predicate Uniform(a: string) {
    forall i :: 0 <= i < |a| ==> CheckType(a[i]) == CheckType(a[0])
  }

  /**
   * `atoms` cuts `s` into maximal runs of same-class characters: they
   * concatenate to `s`, each is a non-empty single-class run, and
   * neighbouring runs differ in class.
   */
  predicate IsRunSplit(s: string, atoms: seq<string>) {
    UniformRuns(atoms) && Alternating(atoms) && Flatten(atoms) == s
  }

  /** Every atom is a non-empty single-class run. */
  predicate UniformRuns(atoms: seq<string>) {
    forall i :: 0 <= i < |atoms| ==> |atoms[i]| > 0 && Uniform(atoms[i])
  }

  /** Neighbouring atoms start with characters of different classes. */
  predicate Alternating(atoms: seq<string>)
    requires forall i :: 0 <= i < |atoms| ==> |atoms[i]| > 0
  {
    forall i :: 0 < i < |atoms| ==> CheckType(atoms[i - 1][0]) != CheckType(atoms[i][0])
  }

  /** No quote character and no whitespace. */
  predicate Plain(s: string) {
    forall i :: 0 <= i < |s| ==> !IsQuote(CheckType(s[i])) && CheckType(s[i]) != Space
  }

  predicate QuoteFree(s: string) {
    forall i :: 0 <= i < |s| ==> !IsQuote(CheckType(s[i]))
  }

  /** What every line that yields atoms is guaranteed to yield. */
  predicate LineFacts(line: string, atoms: seq<string>) {
    && |atoms| > 0
    && (forall i :: 0 <= i < |atoms| ==> |atoms[i]| > 0)
    && |line| > 0 && atoms[0][0] == line[0]
    && DropsOnlySpaces(line, Flatten(atoms))
  }

  function NonEmptyLines(lines: seq<string>): seq<string>
  {
    if |lines| == 0 then []
    else (if |lines[0]| > 0 then [lines[0]] else []) + NonEmptyLines(lines[1..])
  }

  /** The text of all atoms of all lines, in order. */
  function Unlines(out: seq<seq<string>>): string
  {
    if |out| == 0 then [] else Flatten(out[0]) + Unlines(out[1..])
  }

  function CountNewlines(s: string): nat
  {
    if |s| == 0 then 0 else (if s[0] == '\n' then 1 else 0) + CountNewlines(s[1..])
  }

  // ---------------------------------------------------------------------
  // Sequence helpers
  // ---------------------------------------------------------------------

  lemma FlattenSnoc(atoms: seq<string>, a: string)
    ensures Flatten(atoms + [a]) == Flatten(atoms) + a
  {
    assert (atoms + [a])[..|atoms|] == atoms;
  }

  lemma {:induction false} FlattenNonEmpty(atoms: seq<string>)
    requires forall i :: 0 <= i < |atoms| ==> |atoms[i]| > 0
    ensures |Flatten(atoms)| == 0 <==> |atoms| == 0
    ensures |Flatten(atoms)| >= |atoms|
  {
    if |atoms| > 0 {
      FlattenNonEmpty(atoms[..|atoms| - 1]);
    }
  }

  lemma {:induction false} NonSpaceAppend(a: string, b: string)
    ensures NonSpace(a + b) == NonSpace(a) + NonSpace(b)
    decreases |a|
  {
    if |a| > 0 {
      assert (a + b)[1..] == a[1..] + b;
      NonSpaceAppend(a[1..], b);
    } else {
      assert a + b == b;
    }
  }

  lemma ExtendsTrans(a: seq<string>, b: seq<string>, c: seq<string>)
    requires Extends(a, b) && Extends(b, c)
    ensures Extends(a, c)
  {
    if |a| > 0 {
      if |a| < |b| {
        assert c[|a| - 1] == b[|a| - 1];
      } else {
        assert a[|a| - 1] <= b[|a| - 1] <= c[|a| - 1];
      }
    }
  }

  // ---------------------------------------------------------------------
  // The character classifier
  // ---------------------------------------------------------------------

  /** Each quote class holds one character only. */
  lemma QuoteClassSingleton(c: char, q: char)
    requires IsQuote(CheckType(q)) && CheckType(c) == CheckType(q)
    ensures c == q
  {
    assert Belongs(c, CheckType(c)) && Belongs(q, CheckType(q));
  }

  /** The end-of-line separator is whitespace, so it never starts or joins a word. */
  lemma NewlineIsSpace()
    ensures CheckType('\n') == Space
  {
    assert Belongs('\n', Space);
  }

  // ---------------------------------------------------------------------
  // The fold over one line
  // ---------------------------------------------------------------------

  /**
   * One step grows the atoms only at their end, by the processed character
   * or by nothing, and it drops a character only when it is whitespace.
   */
  lemma StepOutput(st: Scanner, c: char)
    requires Valid(st)
    ensures Extends(st.atoms, Step(st, c).atoms)
    ensures Flatten(Step(st, c).atoms) == Flatten(st.atoms) + (if Kept(st, c) then [c] else [])
    ensures !Kept(st, c) ==> CheckType(c) == Space
  {
    StepAtoms(st, c);
    var r := Step(st, c);
    if Kept(st, c) && r.atoms == st.atoms + [[c]] {
      FlattenSnoc(st.atoms, [c]);
    } else if Kept(st, c) {
      AppendToLastOutput(st.atoms, c);
    }
  }

  lemma StepFlatten(st: Scanner, c: char)
    requires Valid(st)
    ensures Flatten(Step(st, c).atoms) == Flatten(st.atoms) + (if Kept(st, c) then [c] else [])
  {
    StepOutput(st, c);
  }

  /** The three things one step can do to the atoms. */
  lemma StepAtoms(st: Scanner, c: char)
    requires Valid(st)
    ensures var r := Step(st, c);
      || (Kept(st, c) && r.atoms == st.atoms + [[c]])
      || (Kept(st, c) && |st.atoms| > 0 && r.atoms == AppendToLast(st.atoms, c))
      || (!Kept(st, c) && r.atoms == st.atoms && CheckType(c) == Space)
  {
  }

  lemma AppendToLastOutput(atoms: seq<string>, c: char)
    requires |atoms| > 0
    ensures Extends(atoms, AppendToLast(atoms, c))
    ensures Flatten(AppendToLast(atoms, c)) == Flatten(atoms) + [c]
  {
    AppendToLastExtends(atoms, c);
    AppendToLastFlatten(atoms, c);
  }

  lemma AppendToLastExtends(atoms: seq<string>, c: char)
    requires |atoms| > 0
    ensures Extends(atoms, AppendToLast(atoms, c))
  {
    var n := |atoms|;
    assert AppendToLast(atoms, c)[..n - 1] == atoms[..n - 1];
  }

  lemma AppendToLastFlatten(atoms: seq<string>, c: char)
    requires |atoms| > 0
    ensures Flatten(AppendToLast(atoms, c)) == Flatten(atoms) + [c]
  {
    var n := |atoms|;
    var pre := atoms[..n - 1];
    var last := atoms[n - 1];
    assert Flatten(atoms) == Flatten(pre) + last;
    FlattenSnoc(pre, last + [c]);
    ConcatAssoc(Flatten(pre), last, [c], Flatten(atoms), Flatten(atoms) + [c]);
  }

  /** Scanning `a + b` is scanning `a`, then `b` from where `a` left off. */
  lemma {:induction false} ScanLineAppend(st: Scanner, a: string, b: string)
    requires Valid(st)
    ensures ScanLine(st, a + b) == ScanLine(ScanLine(st, a), b)
    decreases |a|
  {
    if |a| == 0 {
      assert a + b == b;
    } else {
      assert (a + b)[0] == a[0];
      assert (a + b)[1..] == a[1..] + b;
      ScanLineAppend(Step(st, a[0]), a[1..], b);
    }
  }

  /** Scanning only ever grows the atom list at its end. */
  lemma {:induction false} ScanLineExtends(st: Scanner, cs: string)
    requires Valid(st)
    ensures Extends(st.atoms, ScanLine(st, cs).atoms)
    decreases |cs|
  {
    if |cs| > 0 {
      var s1 := Step(st, cs[0]);
      StepOutput(st, cs[0]);
      ScanLineExtends(s1, cs[1..]);
      ExtendsTrans(st.atoms, s1.atoms, ScanLine(s1, cs[1..]).atoms);
    }
  }

  /** What scanning adds to the concatenated atoms is the kept characters. */
  lemma {:induction false} ScanLineFlatten(st: Scanner, cs: string)
    requires Valid(st)
    ensures Flatten(ScanLine(st, cs).atoms) == Flatten(st.atoms) + KeptChars(st, cs)
    decreases |cs|
  {
    if |cs| > 0 {
      var s1 := Step(st, cs[0]);
      var kept: string := if Kept(st, cs[0]) then [cs[0]] else [];
      var rest := KeptChars(s1, cs[1..]);
      StepFlatten(st, cs[0]);
      ScanLineFlatten(s1, cs[1..]);
      assert ScanLine(st, cs) == ScanLine(s1, cs[1..]);
      assert KeptChars(st, cs) == kept + rest;
      ConcatAssoc(Flatten(st.atoms), kept, rest, Flatten(s1.atoms), Flatten(ScanLine(s1, cs[1..]).atoms));
    }
  }

  lemma ConcatAssoc(a: string, b: string, c: string, x: string, y: string)
    requires x == a + b && y == x + c
    ensures y == a + (b + c)
  {
  }

  /** The kept characters are the scanned ones with some whitespace deleted. */
  lemma {:induction false} KeptCharsDropOnlySpaces(st: Scanner, cs: string)
    requires Valid(st)
    ensures DropsOnlySpaces(cs, KeptChars(st, cs))
    decreases |cs|
  {
    if |cs| > 0 {
      var s1 := Step(st, cs[0]);
      StepOutput(st, cs[0]);
      KeptCharsDropOnlySpaces(s1, cs[1..]);
      var rest := KeptChars(s1, cs[1..]);
      if Kept(st, cs[0]) {
        assert KeptChars(st, cs) == [cs[0]] + rest;
        assert ([cs[0]] + rest)[1..] == rest;
      } else {
        assert KeptChars(st, cs) == rest;
      }
    }
  }

  /**
   * Scanning only ever grows the atom list at its end, and what it adds to
   * the concatenated atoms is `cs` with some whitespace deleted.
   */
  lemma ScanLineOutput(st: Scanner, cs: string)
    requires Valid(st)
    ensures Extends(st.atoms, ScanLine(st, cs).atoms)
    ensures Flatten(ScanLine(st, cs).atoms) == Flatten(st.atoms) + KeptChars(st, cs)
    ensures DropsOnlySpaces(cs, KeptChars(st, cs))
  {
    ScanLineExtends(st, cs);
    ScanLineFlatten(st, cs);
    KeptCharsDropOnlySpaces(st, cs);
  }

  /** Deleting whitespace leaves the non-whitespace characters as they were. */
  lemma {:induction false} DropsOnlySpacesKeepsNonSpace(src: string, dst: string)
    requires DropsOnlySpaces(src, dst)
    ensures NonSpace(src) == NonSpace(dst)
    decreases |src|
  {
    if |src| > 0 {
      if |dst| > 0 && dst[0] == src[0] && DropsOnlySpaces(src[1..], dst[1..]) {
        DropsOnlySpacesKeepsNonSpace(src[1..], dst[1..]);
      } else {
        DropsOnlySpacesKeepsNonSpace(src[1..], dst);
      }
    }
  }

  /**
   * One line scanned from any carried state: it yields atoms exactly when
   * it is non-empty, every atom is non-empty, the first atom starts with
   * the line's first character (whitespace or not), and the atoms
   * concatenate to the line with only whitespace deleted.
   */
  lemma LineScan(carry: Scanner, line: string)
    requires carry.first
    ensures var atoms := ScanLine(LineStart(carry), line).atoms;
      && (|atoms| > 0 <==> |line| > 0)
      && (|line| > 0 ==> LineFacts(line, atoms))
  {
    var st := LineStart(carry);
    if |line| > 0 {
      LineScanFirst(carry, line);
      LineScanDrops(carry, line);
    } else {
      assert ScanLine(st, line) == st;
    }
  }

  /** The first character of a line, whatever its class, starts the first atom. */
  lemma LineScanFirst(carry: Scanner, line: string)
    requires carry.first && |line| > 0
    ensures var atoms := ScanLine(LineStart(carry), line).atoms;
      |atoms| > 0 && |atoms[0]| > 0 && atoms[0][0] == line[0]
  {
    var st := LineStart(carry);
    var s1 := Step(st, line[0]);
    assert s1.atoms == [[line[0]]];
    assert ScanLine(st, line) == ScanLine(s1, line[1..]);
    ScanLineExtends(s1, line[1..]);
  }

  /** A line's atoms concatenate to the line with some whitespace removed. */
  lemma LineScanDrops(carry: Scanner, line: string)
    requires carry.first
    ensures DropsOnlySpaces(line, Flatten(ScanLine(LineStart(carry), line).atoms))
  {
    var st := LineStart(carry);
    ScanLineFlatten(st, line);
    KeptCharsDropOnlySpaces(st, line);
    assert Flatten(st.atoms) == [];
    assert Flatten(st.atoms) + KeptChars(st, line) == KeptChars(st, line);
  }

  // ---------------------------------------------------------------------
  // Maximal runs on plain lines
  // ---------------------------------------------------------------------

  /** The invariant of scanning a plain prefix `done` outside string mode. */
  predicate RunInv(st: Scanner, done: string) {
    && Valid(st)
    && !st.isString
    && IsRunSplit(done, st.atoms)
    && (|st.atoms| > 0 ==> st.previousType == Some(CheckType(st.atoms[|st.atoms| - 1][0])))
  }

  /** One step on a character that is neither a quote nor whitespace, outside a string. */
  lemma StepPlain(st: Scanner, c: char)
    requires Valid(st) && !st.isString
    requires !IsQuote(CheckType(c)) && CheckType(c) != Space
    ensures var t := CheckType(c);
      Step(st, c) ==
        if st.first then st.(first := false, previousType := Some(t), atoms := [[c]])
        else if Some(t) == st.previousType then st.(atoms := AppendToLast(st.atoms, c))
        else st.(previousType := Some(t), atoms := st.atoms + [[c]])
  {
  }

  lemma StepRun(st: Scanner, done: string, c: char)
    requires RunInv(st, done)
    requires !IsQuote(CheckType(c)) && CheckType(c) != Space
    ensures RunInv(Step(st, c), done + [c])
  {
    var t := CheckType(c);
    StepPlain(st, c);
    if st.first {
      RunNewAtom([], done, c);
    } else if Some(t) == st.previousType {
      RunExtendLast(st.atoms, done, c);
    } else {
      RunNewAtom(st.atoms, done, c);
    }
  }

  /** A character of the last run's class extends that run. */
  lemma RunExtendLast(atoms: seq<string>, done: string, c: char)
    requires IsRunSplit(done, atoms) && |atoms| > 0
    requires CheckType(c) == CheckType(atoms[|atoms| - 1][0])
    ensures IsRunSplit(done + [c], AppendToLast(atoms, c))
    ensures AppendToLast(atoms, c)[|atoms| - 1][0] == atoms[|atoms| - 1][0]
  {
    AppendToLastFlatten(atoms, c);
    ExtendLastUniform(atoms, c);
    ExtendLastAlternating(atoms, c);
  }

  lemma ExtendLastUniform(atoms: seq<string>, c: char)
    requires UniformRuns(atoms) && |atoms| > 0
    requires CheckType(c) == CheckType(atoms[|atoms| - 1][0])
    ensures UniformRuns(AppendToLast(atoms, c))
    ensures AppendToLast(atoms, c)[|atoms| - 1][0] == atoms[|atoms| - 1][0]
  {
    var n := |atoms|;
    var last := atoms[n - 1];
    var r := AppendToLast(atoms, c);
    assert r[n - 1] == last + [c];
    assert Uniform(last + [c]);
    assert forall i :: 0 <= i < n - 1 ==> r[i] == atoms[i];
  }

  lemma ExtendLastAlternating(atoms: seq<string>, c: char)
    requires forall i :: 0 <= i < |atoms| ==> |atoms[i]| > 0
    requires Alternating(atoms) && |atoms| > 0
    ensures forall i :: 0 <= i < |atoms| ==> |AppendToLast(atoms, c)[i]| > 0
    ensures Alternating(AppendToLast(atoms, c))
  {
    var n := |atoms|;
    var r := AppendToLast(atoms, c);
    assert r[n - 1] == atoms[n - 1] + [c];
    assert forall i :: 0 <= i < n - 1 ==> r[i] == atoms[i];
  }

  /** A character of another class than the last run starts a new run. */
  lemma RunNewAtom(atoms: seq<string>, done: string, c: char)
    requires IsRunSplit(done, atoms)
    requires |atoms| > 0 ==> CheckType(c) != CheckType(atoms[|atoms| - 1][0])
    ensures IsRunSplit(done + [c], atoms + [[c]])
  {
    FlattenSnoc(atoms, [c]);
    NewAtomUniform(atoms, c);
    NewAtomAlternating(atoms, c);
  }

  lemma NewAtomUniform(atoms: seq<string>, c: char)
    requires UniformRuns(atoms)
    ensures UniformRuns(atoms + [[c]])
  {
    var n := |atoms|;
    var r := atoms + [[c]];
    assert r[n] == [c];
    forall i | 0 <= i < n + 1
      ensures |r[i]| > 0 && Uniform(r[i])
    {
      if i < n {
        assert r[i] == atoms[i];
      }
    }
  }

  lemma NewAtomAlternating(atoms: seq<string>, c: char)
    requires forall i :: 0 <= i < |atoms| ==> |atoms[i]| > 0
    requires Alternating(atoms)
    requires |atoms| > 0 ==> CheckType(c) != CheckType(atoms[|atoms| - 1][0])
    ensures forall i :: 0 <= i < |atoms| + 1 ==> |(atoms + [[c]])[i]| > 0
    ensures Alternating(atoms + [[c]])
  {
    var n := |atoms|;
    var r := atoms + [[c]];
    assert forall i :: 0 <= i < n ==> r[i] == atoms[i];
    forall i | 0 < i < n + 1
      ensures CheckType(r[i - 1][0]) != CheckType(r[i][0])
    {
      assert r[i - 1] == atoms[i - 1];
      if i < n {
        assert r[i] == atoms[i];
      }
    }
  }

  lemma {:induction false} ScanRuns(st: Scanner, done: string, cs: string)
    requires RunInv(st, done) && Plain(cs)
    ensures RunInv(ScanLine(st, cs), done + cs)
    decreases |cs|
  {
    if |cs| == 0 {
      assert done + cs == done;
    } else {
      StepRun(st, done, cs[0]);
      assert (done + [cs[0]]) + cs[1..] == done + cs;
      ScanRuns(Step(st, cs[0]), done + [cs[0]], cs[1..]);
    }
  }

  /**
   * A line without quotes or whitespace, scanned while no string is left
   * open from an earlier line, is cut into its maximal same-class runs.
   */
  lemma PlainLineRuns(carry: Scanner, line: string)
    requires carry.first && !carry.isString && Plain(line)
    ensures IsRunSplit(line, ScanLine(LineStart(carry), line).atoms)
  {
    ScanRuns(LineStart(carry), [], line);
    assert [] + line == line;
  }

  /**
   * If the last atom of `a` is shorter than a single-class suffix `lb` of
   * the text, the atom before it ends inside `lb`, in the class of `a`'s
   * last atom.
   */
  lemma BoundaryRun(s: string, a: seq<string>, lb: string)
    requires Flatten(a) == s && |a| > 0
    requires forall i :: 0 <= i < |a| ==> |a[i]| > 0
    requires |a[|a| - 1]| < |lb| <= |s| && s[|s| - |lb|..] == lb && Uniform(lb)
    ensures |a| >= 2
    ensures CheckType(a[|a| - 2][|a[|a| - 2]| - 1]) == CheckType(a[|a| - 1][0])
  {
    var la := a[|a| - 1];
    var a0 := a[..|a| - 1];
    assert s == Flatten(a0) + la;
    var k := |s| - |la|;
    assert Flatten(a0) == s[..k];
    assert forall i :: 0 <= i < |a0| ==> a0[i] == a[i];
    FlattenNonEmpty(a0);
    var p := a0[|a0| - 1];
    assert Flatten(a0) == Flatten(a0[..|a0| - 1]) + p;
    assert p[|p| - 1] == s[k - 1];
    var base := |s| - |lb|;
    assert s[k - 1] == lb[k - 1 - base] && s[k] == lb[k - base];
    assert la[0] == s[k];
  }

  /** The last run of a split is the longest single-class suffix, so two splits agree on it. */
  lemma LastRunsAgree(s: string, a: seq<string>, b: seq<string>)
    requires IsRunSplit(s, a) && IsRunSplit(s, b) && |a| > 0 && |b| > 0
    ensures |a[|a| - 1]| >= |b[|b| - 1]|
  {
    var lb := b[|b| - 1];
    assert s == Flatten(b[..|b| - 1]) + lb;
    if |a[|a| - 1]| < |lb| {
      BoundaryRun(s, a, lb);
      assert false;
    }
  }

  /** A string has exactly one cut into maximal runs. */
  lemma {:induction false} RunSplitUnique(s: string, a: seq<string>, b: seq<string>)
    requires IsRunSplit(s, a) && IsRunSplit(s, b)
    ensures a == b
    decreases |a|
  {
    FlattenNonEmpty(a);
    FlattenNonEmpty(b);
    if |a| > 0 && |b| > 0 {
      LastRunsAgree(s, a, b);
      LastRunsAgree(s, b, a);
      RunSplitInit(s, a);
      RunSplitInit(s, b);
      var k := |s| - |a[|a| - 1]|;
      assert a[|a| - 1] == s[k..] == b[|b| - 1];
      RunSplitUnique(s[..k], a[..|a| - 1], b[..|b| - 1]);
      assert a == a[..|a| - 1] + [a[|a| - 1]];
      assert b == b[..|b| - 1] + [b[|b| - 1]];
    }
  }

  /** Dropping the last run of a split leaves a split of the text before it. */
  lemma RunSplitInit(s: string, a: seq<string>)
    requires IsRunSplit(s, a) && |a| > 0
    ensures var la := a[|a| - 1];
      |la| <= |s| && s[|s| - |la|..] == la && IsRunSplit(s[..|s| - |la|], a[..|a| - 1])
  {
    var la, a0 := a[|a| - 1], a[..|a| - 1];
    assert a == a0 + [la];
    FlattenSnoc(a0, la);
    assert forall i :: 0 <= i < |a0| ==> a0[i] == a[i];
    assert s[..|s| - |la|] == Flatten(a0);
  }

  // ---------------------------------------------------------------------
  // Quoted spans
  // ---------------------------------------------------------------------

  /** Scanning quote-free text outside string mode never enters it. */
  lemma {:induction false} QuoteFreeScan(st: Scanner, cs: string)
    requires Valid(st) && !st.isString && QuoteFree(cs)
    ensures !ScanLine(st, cs).isString
    ensures ScanLine(st, cs).isFirstString == st.isFirstString
    decreases |cs|
  {
    if |cs| > 0 {
      QuoteFreeScan(Step(st, cs[0]), cs[1..]);
    }
  }

  /** One step inside a string that has already started on this line. */
  lemma StepInString(st: Scanner, c: char)
    requires Valid(st) && !st.first && st.isString && !st.isFirstString
    ensures Step(st, c) ==
      st.(isString := Some(CheckType(c)) != st.stringType, atoms := AppendToLast(st.atoms, c))
  {
  }

  /**
   * Inside a string that began earlier on the line, characters whose class
   * is not the recorded quote kind join the open atom, and nothing else
   * changes.
   */
  lemma {:induction false} StringRest(st: Scanner, cs: string)
    requires Valid(st) && !st.first && st.isString && !st.isFirstString
    requires forall k :: 0 <= k < |cs| ==> Some(CheckType(cs[k])) != st.stringType
    ensures ScanLine(st, cs) == st.(atoms := AppendAll(st.atoms, cs))
    decreases |cs|
  {
    if |cs| == 0 {
      assert st.atoms[|st.atoms| - 1] + cs == st.atoms[|st.atoms| - 1];
    } else {
      var c := cs[0];
      StepInString(st, c);
      var s1 := st.(atoms := AppendToLast(st.atoms, c));
      assert Step(st, c) == s1;
      StringRest(s1, cs[1..]);
      AppendAllStep(st.atoms, cs);
    }
  }

  /** Inside a string, characters other than its closing quote join the open atom. */
  lemma StringBody(st: Scanner, cs: string, q: char)
    requires Valid(st) && !st.first && st.isString && !st.isFirstString
    requires IsQuote(CheckType(q)) && st.stringType == Some(CheckType(q))
    requires forall k :: 0 <= k < |cs| ==> cs[k] != q
    ensures ScanLine(st, cs) == st.(atoms := AppendAll(st.atoms, cs))
  {
    forall k | 0 <= k < |cs|
      ensures Some(CheckType(cs[k])) != st.stringType
    {
      if CheckType(cs[k]) == CheckType(q) {
        QuoteClassSingleton(cs[k], q);
      }
    }
    StringRest(st, cs);
  }

  lemma SplitTwo(s: string)
    requires |s| >= 2
    ensures s == [s[0], s[1]] + s[2..] && [s[1]] + s[2..] == s[1..]
  {
  }

  /** Processing a string that starts with `a` and `b` is two steps followed by the rest. */
  lemma ScanTwo(st: Scanner, a: char, b: char, rest: string)
    requires Valid(st)
    ensures ScanLine(st, [a, b] + rest) == ScanLine(Step(Step(st, a), b), rest)
  {
    var line := [a, b] + rest;
    assert line[0] == a && line[1..] == [b] + rest;
    assert ([b] + rest)[0] == b && ([b] + rest)[1..] == rest;
  }

  /** The first character of a line, when it is a quote or string mode is on. */
  lemma StepStartsString(st: Scanner, c: char)
    requires Valid(st) && st.first && (st.isString || IsQuote(CheckType(c)))
    ensures Step(st, c) ==
      st.(first := false, previousType := Some(CheckType(c)), isString := true, atoms := st.atoms + [[c]])
  {
  }

  /** The character after the one that put a line in string mode starts an atom. */
  lemma StepSecondInString(st: Scanner, c: char)
    requires Valid(st) && !st.first && st.isString && st.isFirstString
    ensures Step(st, c) == st.(isFirstString := false, atoms := st.atoms + [[c]])
  {
  }

  /**
   * A line scanned in string mode from its first character on: the first
   * character is an atom of its own (string mode does not yet glue), and
   * the rest of the line, up to a quote of the recorded kind, is one atom.
   */
  lemma StringFromLineStart(c: Scanner, a: char, b: char, rest: string)
    requires c.first && c.isFirstString && (c.isString || IsQuote(CheckType(a)))
    requires forall k :: 0 <= k < |rest| ==> Some(CheckType(rest[k])) != c.stringType
    ensures ScanLine(LineStart(c), [a, b] + rest) == c.(first := false, previousType := Some(CheckType(a)),
      isString := true, isFirstString := false, atoms := [[a], [b] + rest])
  {
    var s0 := LineStart(c);
    var s1 := Step(s0, a);
    StepStartsString(s0, a);
    assert s1.atoms == [[a]];
    var s2 := Step(s1, b);
    StepSecondInString(s1, b);
    assert s2.atoms == [[a], [b]];
    ScanTwo(s0, a, b, rest);
    StringRest(s2, rest);
    AppendAllPair(a, b, rest);
  }

  /**
   * A quote as the first character of a line enters string mode without
   * recording its kind. With no kind recorded yet, nothing on that line can
   * close the string: the rest of the line, closing quote included, becomes
   * one atom and string mode stays on.
   */
  lemma LineOpeningQuote(carry: Scanner, line: string)
    requires carry.first && carry.isFirstString && carry.stringType == None
    requires |line| >= 2 && IsQuote(CheckType(line[0]))
    ensures var st := ScanLine(LineStart(carry), line);
      st.atoms == [[line[0]], line[1..]] && st.isString && st.stringType == None
  {
    SplitTwo(line);
    StringFromLineStart(carry, line[0], line[1], line[2..]);
  }

  /**
   * Outside a string, whitespace after whitespace has the previous class
   * and is glued to the last atom instead of being dropped: of two
   * whitespace characters between two words, the first is dropped and the
   * second ends up at the end of the first word's atom.
   */
  lemma SpaceAfterSpaceKept(carry: Scanner, x: char, u: char, v: char, y: char)
    requires carry.first && !carry.isString
    requires !IsQuote(CheckType(x)) && CheckType(x) != Space
    requires !IsQuote(CheckType(y)) && CheckType(y) != Space
    requires CheckType(u) == Space && CheckType(v) == Space
    ensures ScanLine(LineStart(carry), [x, u, v, y]).atoms == [[x, v], [y]]
  {
    var s0 := LineStart(carry);
    var s1 := Step(s0, x);
    StepPlain(s0, x);
    assert s1.atoms == [[x]] && s1.previousType == Some(CheckType(x)) && !s1.isString;
    var s2 := Step(s1, u);
    StepSpace(s1, u);
    assert s2.atoms == [[x]] && s2.previousType == Some(Space) && !s2.isString;
    var s3 := Step(s2, v);
    StepSpace(s2, v);
    assert [[x]][..0] == [] && [x] + [v] == [x, v];
    assert s3.atoms == [[x, v]] && s3.previousType == Some(Space) && !s3.isString;
    var s4 := Step(s3, y);
    StepPlain(s3, y);
    assert s4.atoms == [[x, v], [y]];
    ScanFour(s0, x, u, v, y);
  }

  lemma ScanFour(st: Scanner, a: char, b: char, c: char, d: char)
    requires Valid(st)
    ensures ScanLine(st, [a, b, c, d]) == Step(Step(Step(Step(st, a), b), c), d)
  {
    assert [a, b, c, d] == [a, b] + [c, d] && [c, d] == [c, d] + [];
    ScanTwo(st, a, b, [c, d]);
    ScanTwo(Step(Step(st, a), b), c, d, []);
  }

  /** Outside a string, whitespace extends a whitespace atom and is otherwise dropped. */
  lemma StepSpace(st: Scanner, c: char)
    requires Valid(st) && !st.first && !st.isString && CheckType(c) == Space
    ensures Step(st, c) ==
      if st.previousType == Some(Space) then st.(atoms := AppendToLast(st.atoms, c))
      else st.(previousType := Some(Space))
  {
  }

  /**
   * String mode and its quote kind survive the end of a line. A string
   * still open when a line ends takes in the next line: its first character
   * is an atom of its own and the rest of it, when it holds no closing
   * quote, is a second atom.
   */
  lemma OpenStringCarries(carry: Scanner, line: string, next: string, rest: seq<string>, q: char)
    requires carry.first && |line| > 0 && IsQuote(CheckType(q))
    requires ScanLine(LineStart(carry), line).isString
    requires ScanLine(LineStart(carry), line).stringType == Some(CheckType(q))
    requires |next| >= 2 && forall k :: 2 <= k < |next| ==> next[k] != q
    ensures var out := StreamFrom(carry, [line, next] + rest);
      |out| >= 2 && out[1] == [[next[0]], next[1..]]
  {
    var lines := [line, next] + rest;
    var st := ScanLine(LineStart(carry), line);
    var c := LineEnd(st);
    CarriedStringLine(c, next, q);
    var nx := ScanLine(LineStart(c), next);
    assert |st.atoms| > 0;
    assert lines[0] == line && lines[1..] == [next] + rest;
    assert StreamFrom(carry, lines) == [st.atoms] + StreamFrom(c, [next] + rest);
    assert ([next] + rest)[0] == next && ([next] + rest)[1..] == rest;
    assert StreamFrom(c, [next] + rest) == [nx.atoms] + StreamFrom(LineEnd(nx), rest);
  }

  /**
   * A line that begins in string mode, with no quote of the string's kind
   * after its second character, scans to two atoms: its first character
   * and the rest of it.
   */
  lemma CarriedStringLine(c: Scanner, next: string, q: char)
    requires c.first && c.isFirstString && c.isString
    requires IsQuote(CheckType(q)) && c.stringType == Some(CheckType(q))
    requires |next| >= 2 && forall k :: 2 <= k < |next| ==> next[k] != q
    ensures ScanLine(LineStart(c), next).atoms == [[next[0]], next[1..]]
  {
    var tail := next[2..];
    forall k | 0 <= k < |tail|
      ensures Some(CheckType(tail[k])) != c.stringType
    {
      assert tail[k] == next[k + 2];
      if CheckType(tail[k]) == CheckType(q) {
        QuoteClassSingleton(tail[k], q);
      }
    }
    SplitTwo(next);
    StringFromLineStart(c, next[0], next[1], tail);
  }

  /** The atoms with `cs` appended to the last one. */
  function AppendAll(atoms: seq<string>, cs: string): seq<string>
    requires |atoms| > 0
  {
    atoms[..|atoms| - 1] + [atoms[|atoms| - 1] + cs]
  }

  lemma AppendAllPair(a: char, b: char, cs: string)
    ensures AppendAll([[a], [b]], cs) == [[a], [b] + cs]
  {
    assert [[a], [b]][..1] == [[a]];
  }

  lemma AppendAllStep(atoms: seq<string>, cs: string)
    requires |atoms| > 0 && |cs| > 0
    ensures AppendAll(AppendToLast(atoms, cs[0]), cs[1..]) == AppendAll(atoms, cs)
  {
    var n := |atoms|;
    var b := AppendToLast(atoms, cs[0]);
    assert b[..n - 1] == atoms[..n - 1];
    assert (atoms[n - 1] + [cs[0]]) + cs[1..] == atoms[n - 1] + cs;
  }

  /** A quote after the first character, outside any string, opens one. */
  lemma StepOpensString(st: Scanner, q: char)
    requires Valid(st) && !st.first && !st.isString && st.isFirstString && IsQuote(CheckType(q))
    ensures Step(st, q) == st.(isString := true, isFirstString := false,
      stringType := Some(CheckType(q)), atoms := st.atoms + [[q]])
  {
  }

  /**
   * A quote after the first string of a line does not open a span: it is
   * glued to the last atom and string mode ends at once, because the
   * closing test sees the quote kind it has just recorded.
   */
  lemma StepLaterQuote(st: Scanner, q: char)
    requires Valid(st) && !st.first && !st.isString && !st.isFirstString && IsQuote(CheckType(q))
    ensures Step(st, q) == st.(stringType := Some(CheckType(q)), atoms := AppendToLast(st.atoms, q))
  {
  }

  /**
   * The first string opened in the middle of a line becomes a new atom that
   * holds the whole span from its quote to the next occurrence of the same
   * quote, whitespace and the other quote kind included, and string mode
   * ends there.
   */
  lemma FirstStringSpan(st: Scanner, seg: string)
    requires Valid(st) && !st.first && !st.isString && st.isFirstString
    requires |seg| >= 2 && IsQuote(CheckType(seg[0])) && seg[|seg| - 1] == seg[0]
    requires forall k :: 0 < k < |seg| - 1 ==> seg[k] != seg[0]
    ensures ScanLine(st, seg).atoms == st.atoms + [seg]
    ensures !ScanLine(st, seg).isString && !ScanLine(st, seg).isFirstString
  {
    var q := seg[0];
    var mid := seg[1..|seg| - 1];
    assert seg == ([q] + mid) + [q];
    ScanLineAppend(st, [q] + mid, [q]);
    OpenedSpan(st, q, mid);
    var s2 := ScanLine(st, [q] + mid);
    StepInString(s2, q);
    assert ScanLine(s2, [q]) == Step(s2, q);
    assert s2.atoms[..|s2.atoms| - 1] == st.atoms;
  }

  /** The opening quote and the body of a first string form one new atom, still open. */
  lemma OpenedSpan(st: Scanner, q: char, mid: string)
    requires Valid(st) && !st.first && !st.isString && st.isFirstString && IsQuote(CheckType(q))
    requires forall k :: 0 <= k < |mid| ==> mid[k] != q
    ensures ScanLine(st, [q] + mid) == st.(isString := true, isFirstString := false,
      stringType := Some(CheckType(q)), atoms := st.atoms + [[q] + mid])
  {
    ScanLineAppend(st, [q], mid);
    var s1 := Step(st, q);
    StepOpensString(st, q);
    assert ScanLine(st, [q]) == s1;
    StringBody(s1, mid, q);
    assert s1.atoms[..|s1.atoms| - 1] == st.atoms;
  }

  /**
   * Within a whole line: when a quote at position `i > 0` is the first quote
   * of the line and no string is left open from earlier, some atom of the
   * line starts with the span from `i` through the next occurrence of the
   * same quote at `j`.
   */
  lemma FirstStringAtom(carry: Scanner, line: string, i: nat, j: nat)
    requires carry.first && carry.isFirstString && !carry.isString
    requires 0 < i < j < |line|
    requires QuoteFree(line[..i]) && IsQuote(CheckType(line[i])) && line[j] == line[i]
    requires forall k :: i < k < j ==> line[k] != line[i]
    ensures var atoms := ScanLine(LineStart(carry), line).atoms;
      exists n :: 0 <= n < |atoms| && line[i..j + 1] <= atoms[n]
  {
    var st := LineStart(carry);
    var seg := line[i..j + 1];
    ThreeParts(line, i, j + 1);
    ScanLineAppend(st, line[..i] + seg, line[j + 1..]);
    ScanLineAppend(st, line[..i], seg);
    var si := ScanLine(st, line[..i]);
    QuoteFreeScan(st, line[..i]);
    FirstStringSpan(si, seg);
    var sj := ScanLine(si, seg);
    ScanLineExtends(sj, line[j + 1..]);
    var n := |si.atoms|;
    assert sj.atoms[n] == seg;
  }

  lemma ThreeParts(s: string, i: nat, j: nat)
    requires i <= j <= |s|
    ensures s == s[..i] + s[i..j] + s[j..]
  {
  }

  // ---------------------------------------------------------------------
  // Lines of the file
  // ---------------------------------------------------------------------

  lemma FirstNewlineAt(s: string, p: nat)
    requires p < |s| && s[p] == '\n' && '\n' !in s[..p]
    ensures FirstNewline(s) == p
  {
  }

  /** Splitting joined lines that hold no "\n" gives the lines back. */
  lemma {:induction false} SplitJoin(lines: seq<string>)
    requires |lines| > 0
    requires forall i :: 0 <= i < |lines| ==> '\n' !in lines[i]
    ensures SplitLines(Join(lines)) == lines
    decreases |lines|
  {
    if |lines| > 1 {
      var s := Join(lines);
      var p := |lines[0]|;
      assert s == lines[0] + "\n" + Join(lines[1..]);
      assert s[p] == '\n' && s[..p] == lines[0];
      FirstNewlineAt(s, p);
      assert s[p + 1..] == Join(lines[1..]);
      SplitJoin(lines[1..]);
    }
  }

  /** There is one line more than there are "\n" characters. */
  lemma {:induction false} SplitLinesCount(s: string)
    ensures |SplitLines(s)| == CountNewlines(s) + 1
    decreases |s|
  {
    if '\n' !in s {
      NoNewlineCount(s);
    } else {
      var i := FirstNewline(s);
      CountAppend(s[..i], s[i..]);
      assert s == s[..i] + s[i..];
      NoNewlineCount(s[..i]);
      assert s[i..][1..] == s[i + 1..];
      SplitLinesCount(s[i + 1..]);
    }
  }

  lemma {:induction false} NoNewlineCount(s: string)
    requires '\n' !in s
    ensures CountNewlines(s) == 0
    decreases |s|
  {
    if |s| > 0 {
      assert s[0] in s;
      assert forall c :: c in s[1..] ==> c in s;
      NoNewlineCount(s[1..]);
    }
  }

  lemma {:induction false} CountAppend(a: string, b: string)
    ensures CountNewlines(a + b) == CountNewlines(a) + CountNewlines(b)
    decreases |a|
  {
    if |a| == 0 {
      assert a + b == b;
    } else {
      assert (a + b)[1..] == a[1..] + b;
      CountAppend(a[1..], b);
    }
  }

  lemma {:induction false} NonEmptyLinesBound(lines: seq<string>)
    ensures |NonEmptyLines(lines)| <= |lines|
    ensures forall k :: 0 <= k < |NonEmptyLines(lines)| ==> |NonEmptyLines(lines)[k]| > 0
  {
    if |lines| > 0 {
      NonEmptyLinesBound(lines[1..]);
    }
  }

  /**
   * The outer loop, from any carried state: one atom list per non-empty
   * line, in order, each satisfying the per-line guarantees.
   */
  lemma {:induction false} StreamFromShape(carry: Scanner, lines: seq<string>)
    requires carry.first
    ensures var out := StreamFrom(carry, lines);
      && |out| == |NonEmptyLines(lines)|
      && forall k :: 0 <= k < |out| ==> LineFacts(NonEmptyLines(lines)[k], out[k])
    decreases |lines|
  {
    if |lines| > 0 {
      var st := ScanLine(LineStart(carry), lines[0]);
      LineScan(carry, lines[0]);
      StreamFromShape(LineEnd(st), lines[1..]);
    }
  }

  /**
   * `StreamLine` keeps one atom list per non-empty line of the file, so
   * never more lists than lines; every list and every atom in it is
   * non-empty, each list starts with its line's first character, and its
   * atoms concatenate to the line minus some whitespace.
   */
  lemma StreamLineShape(text: string)
    ensures var out := StreamLine(text);
      var lines := NonEmptyLines(SplitLines(text));
      && |out| == |lines| <= |SplitLines(text)| == CountNewlines(text) + 1
      && forall k :: 0 <= k < |out| ==> LineFacts(lines[k], out[k])
  {
    StreamFromShape(Initial, SplitLines(text));
    NonEmptyLinesBound(SplitLines(text));
    SplitLinesCount(text);
  }

  lemma {:induction false} StreamFromNonSpace(carry: Scanner, lines: seq<string>)
    requires carry.first && |lines| > 0
    ensures NonSpace(Unlines(StreamFrom(carry, lines))) == NonSpace(Join(lines))
    decreases |lines|
  {
    var st := ScanLine(LineStart(carry), lines[0]);
    var head := if |st.atoms| > 0 then [st.atoms] else [];
    var tail := StreamFrom(LineEnd(st), lines[1..]);
    assert StreamFrom(carry, lines) == head + tail;
    UnlinesAppend(head, tail);
    NonSpaceAppend(Unlines(head), Unlines(tail));
    LineNonSpace(carry, lines[0]);
    if |lines| > 1 {
      StreamFromNonSpace(LineEnd(st), lines[1..]);
      JoinNonSpace(lines);
    } else {
      assert tail == [];
    }
  }

  /** One line's atoms keep exactly the line's non-whitespace characters. */
  lemma LineNonSpace(carry: Scanner, line: string)
    requires carry.first
    ensures var st := ScanLine(LineStart(carry), line);
      NonSpace(Unlines(if |st.atoms| > 0 then [st.atoms] else [])) == NonSpace(line)
  {
    var atoms := ScanLine(LineStart(carry), line).atoms;
    LineScanDrops(carry, line);
    DropsOnlySpacesKeepsNonSpace(line, Flatten(atoms));
    if |atoms| > 0 {
      UnlinesSingle(atoms);
    } else {
      assert Flatten(atoms) == [];
    }
  }

  lemma UnlinesSingle(atoms: seq<string>)
    ensures Unlines([atoms]) == Flatten(atoms)
  {
    assert [atoms][1..] == [];
  }

  /** The line break between two lines is whitespace. */
  lemma JoinNonSpace(lines: seq<string>)
    requires |lines| > 1
    ensures NonSpace(Join(lines)) == NonSpace(lines[0]) + NonSpace(Join(lines[1..]))
  {
    var rest := Join(lines[1..]);
    var tail := "\n" + rest;
    ConcatAssoc(lines[0], "\n", rest, lines[0] + "\n", Join(lines));
    NonSpaceAppend(lines[0], tail);
    NonSpaceAppend("\n", rest);
    NewlineIsSpace();
    assert NonSpace("\n") == [] + NonSpace([]);
    assert NonSpace(tail) == NonSpace(rest);
  }

  lemma {:induction false} UnlinesAppend(a: seq<seq<string>>, b: seq<seq<string>>)
    ensures Unlines(a + b) == Unlines(a) + Unlines(b)
    decreases |a|
  {
    if |a| == 0 {
      assert a + b == b;
    } else {
      assert (a + b)[1..] == a[1..] + b;
      UnlinesAppend(a[1..], b);
    }
  }

  /** Every non-whitespace character of the file survives atomization, in order. */
  lemma StreamLineKeepsNonSpace(text: string)
    ensures NonSpace(Unlines(StreamLine(text))) == NonSpace(text)
  {
    StreamFromNonSpace(Initial, SplitLines(text));
  }

  lemma {:induction false} StreamFromRuns(carry: Scanner, lines: seq<string>)
    requires carry.first && !carry.isString
    requires forall i :: 0 <= i < |lines| ==> Plain(lines[i])
    ensures var out := StreamFrom(carry, lines);
      && |out| == |NonEmptyLines(lines)|
      && forall k :: 0 <= k < |out| ==> IsRunSplit(NonEmptyLines(lines)[k], out[k])
    decreases |lines|
  {
    if |lines| > 0 {
      var st := ScanLine(LineStart(carry), lines[0]);
      PlainLineRuns(carry, lines[0]);
      LineScan(carry, lines[0]);
      QuoteFreeScan(LineStart(carry), lines[0]);
      StreamFromRuns(LineEnd(st), lines[1..]);
    }
  }

  /**
   * In a file with no quote characters and no whitespace other than line
   * breaks, every line's atoms are the unique cut of that line into
   * maximal same-class runs, so neighbouring atoms differ in class.
   */
  lemma PlainTextRuns(text: string)
    requires forall i :: 0 <= i < |text| ==> text[i] == '\n' || Plain([text[i]])
    ensures var out := StreamLine(text);
      var lines := NonEmptyLines(SplitLines(text));
      && |out| == |lines|
      && (forall k :: 0 <= k < |out| ==> IsRunSplit(lines[k], out[k]))
      && forall k, atoms :: 0 <= k < |out| && IsRunSplit(lines[k], atoms) ==> out[k] == atoms
  {
    var lines := SplitLines(text);
    forall i | 0 <= i < |lines|
      ensures Plain(lines[i])
    {
      forall p | 0 <= p < |lines[i]|
        ensures !IsQuote(CheckType(lines[i][p])) && CheckType(lines[i][p]) != Space
      {
        LineIsInText(lines, i, p);
        var c := lines[i][p];
        assert c != '\n';
        assert c in text;
        var m :| 0 <= m < |text| && text[m] == c;
        assert Plain([text[m]]);
        assert [text[m]][0] == c;
      }
    }
    StreamFromRuns(Initial, lines);
    var out := StreamLine(text);
    forall k, atoms | 0 <= k < |out| && IsRunSplit(NonEmptyLines(lines)[k], atoms)
      ensures out[k] == atoms
    {
      RunSplitUnique(NonEmptyLines(lines)[k], out[k], atoms);
    }
  }

  /** Every character of a split line is a character of the joined text. */
  lemma {:induction false} LineIsInText(lines: seq<string>, i: nat, p: nat)
    requires |lines| > 0 && i < |lines| && p < |lines[i]|
    ensures lines[i][p] in Join(lines)
    decreases |lines|
  {
    if |lines| > 1 {
      assert Join(lines) == lines[0] + "\n" + Join(lines[1..]);
      if i == 0 {
        assert Join(lines)[p] == lines[0][p];
      } else {
        LineIsInText(lines[1..], i - 1, p);
        var m :| 0 <= m < |Join(lines[1..])| && Join(lines[1..])[m] == lines[i][p];
        assert Join(lines)[|lines[0]| + 1 + m] == lines[i][p];
      }
    }
  }
}

=== FILE: parser.dfy ===
/**
 * The recursive-descent recogniser of Parser.py.
 *
 * The parser state is the cursor `index` (the Python `token_index`, the
 * number of tokens consumed so far), the `current` token (always the token
 * just before the cursor) and the flat `tree` of matched tokens. Every rule
 * is a pure function from a state to a new state or the failure that the
 * original raises. Loops become tail-recursive helpers, and recursion is
 * bounded by the tokens left, with a rank for calls that consume nothing.
 */
module Parser {
  import opened Common

  /** Why parsing stopped, one variant per exception raised. */
  datatype Failure =
    | Mismatch(expected: string, found: string)      // SyntaxError from `match`
    | InvalidType(found: string)                     // SyntaxError from `type`
    | NoEndlineAfterDeclaration(found: string)       // SyntaxError from `declarations`
    | NoEndlineAtEnd(found: string)                  // SyntaxError from `program`
    | OutOfTokens                                    // IndexError from `consume`

  /** The text the original attaches to each exception. */
  function Message(f: Failure): (r: string)
    ensures f.Mismatch? ==> StartsWith(r, "Expected " + f.expected) && EndsWith(r, " but got " + f.found)
    ensures f.InvalidType? ==> StartsWith(r, "Invalid type: ") && EndsWith(r, f.found)
    ensures f.NoEndlineAfterDeclaration? ==>
      StartsWith(r, "Expected ENDLINE after declaration") && EndsWith(r, f.found)
    ensures f.NoEndlineAtEnd? ==> StartsWith(r, "Expected ENDLINE at the end") && EndsWith(r, f.found)
  {
    match f
    case Mismatch(e, g) => "Expected " + e + " but got " + g
    case InvalidType(g) => "Invalid type: " + g
    case NoEndlineAfterDeclaration(g) => "Expected ENDLINE after declaration, but got " + g
    case NoEndlineAtEnd(g) => "Expected ENDLINE at the end, but got " + g
    case OutOfTokens => "list index out of range"
  }

  datatype PState = PState(index: nat, current: Token, tree: seq<Token>)

  type PResult = Result<PState, Failure>

  /** At least one token has been consumed and `current` is the last one. */
  predicate Valid(toks: seq<Token>, ps: PState) {
    1 <= ps.index <= |toks| && ps.current == toks[ps.index - 1]
  }

  /**
   * `r` is reached from `ps` by matching tokens only: the cursor has not
   * moved back, the tree grew by exactly the tokens passed over, in order,
   * and none of them is an `ENDLINE`.
   */
  predicate Advances(toks: seq<Token>, ps: PState, r: PState)
    requires Valid(toks, ps)
  {
    && Valid(toks, r)
    && ps.index <= r.index
    && r.tree == ps.tree + toks[ps.index - 1..r.index - 1]
    && forall k :: ps.index - 1 <= k < r.index - 1 ==> toks[k].kind != "ENDLINE"
  }

  lemma AdvancesRefl(toks: seq<Token>, ps: PState)
    requires Valid(toks, ps)
    ensures Advances(toks, ps, ps)
  {
    assert toks[ps.index - 1..ps.index - 1] == [];
  }

  lemma AdvancesTrans(toks: seq<Token>, a: PState, b: PState, c: PState)
    requires Valid(toks, a) && Advances(toks, a, b) && Advances(toks, b, c)
    ensures Advances(toks, a, c)
  {
    var i, j, k := a.index - 1, b.index - 1, c.index - 1;
    SliceSplit(toks, i, j, k);
    SeqAssoc(a.tree, toks[i..j], toks[j..k]);
    forall m | i <= m < k
      ensures toks[m].kind != "ENDLINE"
    {
      if m < j {
        assert i <= m < j;
      } else {
        assert j <= m < k;
      }
    }
  }

  lemma SeqAssoc<T>(a: seq<T>, b: seq<T>, c: seq<T>)
    ensures (a + b) + c == a + (b + c)
  {
  }

  lemma SliceSplit<T>(s: seq<T>, i: nat, j: nat, k: nat)
    requires i <= j <= k <= |s|
    ensures s[i..k] == s[i..j] + s[j..k]
  {
  }

  // ---------------------------------------------------------------------
  // consume and match
  // ---------------------------------------------------------------------

  /**
   * `consume`: the token under the cursor becomes current and the cursor
   * moves on; past the last token the list lookup fails.
   */
  function Consume(toks: seq<Token>, index: nat, tree: seq<Token>): (r: PResult)
    requires index <= |toks|
    ensures r.Ok? <==> index < |toks|
    ensures r.Ok? ==> Valid(toks, r.value) && r.value.index == index + 1 && r.value.tree == tree
    ensures r.Err? ==> r.error == OutOfTokens
  {
    if index < |toks| then Ok(PState(index + 1, toks[index], tree)) else Err(OutOfTokens)
  }

  /**
   * `match`: succeeds exactly when the current kind is the expected one
   * and a next token exists; it records the current token in the tree and
   * moves the cursor by exactly one.
   */
  function Match(toks: seq<Token>, ps: PState, expected: string): (r: PResult)
    requires Valid(toks, ps)
    ensures r.Ok? <==> ps.current.kind == expected && ps.index < |toks|
    ensures r.Ok? ==> r.value.index == ps.index + 1 && r.value.tree == ps.tree + [ps.current]
    ensures r.Ok? && expected != "ENDLINE" ==> Advances(toks, ps, r.value)
    ensures ps.current.kind != expected ==> r == Err(Mismatch(expected, ps.current.kind))
    ensures ps.current.kind == expected && ps.index == |toks| ==> r == Err(OutOfTokens)
  {
    if ps.current.kind == expected then
      var r := Consume(toks, ps.index, ps.tree + [ps.current]);
      assert r.Ok? ==> toks[ps.index - 1..ps.index] == [ps.current];
      r
    else
      Err(Mismatch(expected, ps.current.kind))
  }

  // ---------------------------------------------------------------------
  // Expressions
  // ---------------------------------------------------------------------

  predicate IsAdditive(kind: string) {
    kind == "OP_ARITHMETIC_PLUS" || kind == "OP_ARITHMETIC_MINUS"
  }

  /** The multiplicative operators, with the division kind spelled as the original spells it. */
  predicate IsMultiplicative(kind: string) {
    kind == "OP_ARITHMETIC_MULTIPLY" || kind == "OP_ARITHMETIC_DIVide"
  }

  predicate IsOperandToken(kind: string) {
    kind == "IDENTIFIER" || kind == "LITERAL_INTEGER" || kind == "LITERAL_DOUBLE"
  }

  /** `expression`: one simple expression. */
  function Expression(toks: seq<Token>, ps: PState): (r: PResult)
    requires Valid(toks, ps)
    ensures r.Ok? ==> Advances(toks, ps, r.value)
    decreases |toks| - ps.index, 6
  {
    SimpleExpression(toks, ps)
  }

  /** `simple_expression`: a term, then the `+`/`-` loop. */
  function SimpleExpression(toks: seq<Token>, ps: PState): (r: PResult)
    requires Valid(toks, ps)
    ensures r.Ok? ==> Advances(toks, ps, r.value)
    ensures r.Ok? ==> !IsAdditive(r.value.current.kind)
    decreases |toks| - ps.index, 5
  {
    var p1 :- Term(toks, ps);
    var p2 :- SimpleTail(toks, p1);
    AdvancesTrans(toks, ps, p1, p2);
    Ok(p2)
  }

  /**
   * The `while` loop of `simple_expression`: it stops at the first
   * non-additive kind, and an iteration that runs consumes the operator.
   */
  function SimpleTail(toks: seq<Token>, ps: PState): (r: PResult)
    requires Valid(toks, ps)
    ensures r.Ok? ==> Advances(toks, ps, r.value)
    ensures r.Ok? ==> !IsAdditive(r.value.current.kind)
    ensures !IsAdditive(ps.current.kind) ==> r == Ok(ps)
    ensures IsAdditive(ps.current.kind) && r.Ok? ==> r.value.index > ps.index
    decreases |toks| - ps.index, 4
  {
    if IsAdditive(ps.current.kind) then
      var p1 :- Match(toks, ps, ps.current.kind);
      var p2 :- Term(toks, p1);
      var p3 :- SimpleTail(toks, p2);
      AdvancesTrans(toks, ps, p1, p2);
      AdvancesTrans(toks, ps, p2, p3);
      Ok(p3)
    else
      AdvancesRefl(toks, ps);
      Ok(ps)
  }

  /** `term`: a factor, then the `*`/`/` loop. */
  function Term(toks: seq<Token>, ps: PState): (r: PResult)
    requires Valid(toks, ps)
    ensures r.Ok? ==> Advances(toks, ps, r.value)
    ensures r.Ok? ==> !IsMultiplicative(r.value.current.kind)
    decreases |toks| - ps.index, 3
  {
    var p1 :- Factor(toks, ps);
    var p2 :- TermTail(toks, p1);
    AdvancesTrans(toks, ps, p1, p2);
    Ok(p2)
  }

  /**
   * The `while` loop of `term`: it stops at the first non-multiplicative
   * kind, and an iteration that runs consumes the operator.
   */
  function TermTail(toks: seq<Token>, ps: PState): (r: PResult)
    requires Valid(toks, ps)
    ensures r.Ok? ==> Advances(toks, ps, r.value)
    ensures r.Ok? ==> !IsMultiplicative(r.value.current.kind)
    ensures !IsMultiplicative(ps.current.kind) ==> r == Ok(ps)
    ensures IsMultiplicative(ps.current.kind) && r.Ok? ==> r.value.index > ps.index
    decreases |toks| - ps.index, 2
  {
    if IsMultiplicative(ps.current.kind) then
      var p1 :- Match(toks, ps, ps.current.kind);
      var p2 :- Factor(toks, p1);
      var p3 :- TermTail(toks, p2);
      AdvancesTrans(toks, ps, p1, p2);
      AdvancesTrans(toks, ps, p2, p3);
      Ok(p3)
    else
      AdvancesRefl(toks, ps);
      Ok(ps)
  }

  /**
   * `factor`: an identifier or a numeric literal is one matched token, a
   * `'('` opens a parenthesised expression, and any other kind is accepted
   * without consuming anything.
   */
  function Factor(toks: seq<Token>, ps: PState): (r: PResult)
    requires Valid(toks, ps)
    ensures r.Ok? ==> Advances(toks, ps, r.value)
    ensures IsOperandToken(ps.current.kind) && r.Ok? ==>
      r.value.index == ps.index + 1 && r.value.tree == ps.tree + [ps.current]
    ensures IsOperandToken(ps.current.kind) ==> (r.Ok? <==> ps.index < |toks|)
    ensures !IsOperandToken(ps.current.kind) && ps.current.kind != "(" ==> r == Ok(ps)
    decreases |toks| - ps.index, 1
  {
    var kind := ps.current.kind;
    if kind == "IDENTIFIER" then
      Match(toks, ps, "IDENTIFIER")
    else if kind == "LITERAL_INTEGER" || kind == "LITERAL_DOUBLE" then
      Match(toks, ps, kind)
    else if kind == "(" then
      var p1 :- Match(toks, ps, "(");
      var p2 :- Expression(toks, p1);
      var p3 :- Match(toks, p2, ")");
      AdvancesTrans(toks, ps, p1, p2);
      AdvancesTrans(toks, ps, p2, p3);
      Ok(p3)
    else
      AdvancesRefl(toks, ps);
      Ok(ps)
  }

  /** `condition`: an expression followed by a relational expression. */
  function Condition(toks: seq<Token>, ps: PState): (r: PResult)
    requires Valid(toks, ps)
    ensures r.Ok? ==> Advances(toks, ps, r.value)
  {
    var p1 :- Expression(toks, ps);
    var p2 :- RelationalExpression(toks, p1);
    AdvancesTrans(toks, ps, p1, p2);
    Ok(p2)
  }

  /** `relational_expression`: an optional `>=` operator, then an expression. */
  function RelationalExpression(toks: seq<Token>, ps: PState): (r: PResult)
    requires Valid(toks, ps)
    ensures r.Ok? ==> Advances(toks, ps, r.value)
    ensures ps.current.kind != "OP_RELATIONAL_GREATERTHANOREQUAL" ==> r == Expression(toks, ps)
  {
    if ps.current.kind == "OP_RELATIONAL_GREATERTHANOREQUAL" then
      var p1 :- Match(toks, ps, "OP_RELATIONAL_GREATERTHANOREQUAL");
      var p2 :- Expression(toks, p1);
      AdvancesTrans(toks, ps, p1, p2);
      Ok(p2)
    else
      Expression(toks, ps)
  }

  // ---------------------------------------------------------------------
  // Statements
  // ---------------------------------------------------------------------

  predicate IsTypeKind(kind: string) {
    kind == "KEYWORD_INT" || kind == "KEYWORD_DOUBLE" || kind == "IDENTIFIER"
  }

  predicate IsStatementStart(kind: string) {
    kind == "IDENTIFIER" || kind == "KEYWORD_OUTPUT" || kind == "KEYWORD_IF"
  }

  /** `type`: one of the three type kinds is matched; anything else is an invalid type. */
  function VarType(toks: seq<Token>, ps: PState): (r: PResult)
    requires Valid(toks, ps)
    ensures r.Ok? <==> IsTypeKind(ps.current.kind) && ps.index < |toks|
    ensures r.Ok? ==> Advances(toks, ps, r.value) && r.value.index == ps.index + 1
    ensures !IsTypeKind(ps.current.kind) ==> r == Err(InvalidType(ps.current.kind))
  {
    if IsTypeKind(ps.current.kind) then Match(toks, ps, ps.current.kind)
    else Err(InvalidType(ps.current.kind))
  }

  /**
   * `assignment_statement`: matches the kind `':='` against the current
   * token, then an expression.
   */
  function AssignmentStatement(toks: seq<Token>, ps: PState): (r: PResult)
    requires Valid(toks, ps)
    ensures r.Ok? ==> Advances(toks, ps, r.value) && r.value.index > ps.index
    ensures ps.current.kind != ":=" ==> r == Err(Mismatch(":=", ps.current.kind))
  {
    var p1 :- Match(toks, ps, ":=");
    var p2 :- Expression(toks, p1);
    AdvancesTrans(toks, ps, p1, p2);
    Ok(p2)
  }

  /** `output_params`: a string literal token, or else an expression. */
  function OutputParams(toks: seq<Token>, ps: PState): (r: PResult)
    requires Valid(toks, ps)
    ensures r.Ok? ==> Advances(toks, ps, r.value)
    ensures ps.current.kind == "LITERAL_STRING" ==> r == Match(toks, ps, "LITERAL_STRING")
  {
    if ps.current.kind == "LITERAL_STRING" then Match(toks, ps, "LITERAL_STRING")
    else Expression(toks, ps)
  }

  /** `output_statement`: `KEYWORD_OUTPUT`, `OP_LEFTSHIFT`, then the parameters. */
  function OutputStatement(toks: seq<Token>, ps: PState): (r: PResult)
    requires Valid(toks, ps)
    ensures r.Ok? ==> Advances(toks, ps, r.value) && r.value.index >= ps.index + 2
    ensures r.Ok? ==> ps.current.kind == "KEYWORD_OUTPUT" && toks[ps.index].kind == "OP_LEFTSHIFT"
  {
    var p1 :- Match(toks, ps, "KEYWORD_OUTPUT");
    var p2 :- Match(toks, p1, "OP_LEFTSHIFT");
    var p3 :- OutputParams(toks, p2);
    AdvancesTrans(toks, ps, p1, p2);
    AdvancesTrans(toks, ps, p2, p3);
    Ok(p3)
  }

  /**
   * `statement`: dispatches on the current kind; a kind that starts no
   * statement is accepted without consuming anything.
   */
  function Statement(toks: seq<Token>, ps: PState): (r: PResult)
    requires Valid(toks, ps)
    ensures r.Ok? ==> Advances(toks, ps, r.value)
    ensures IsStatementStart(ps.current.kind) && r.Ok? ==> r.value.index > ps.index
    ensures !IsStatementStart(ps.current.kind) ==> r == Ok(ps)
    decreases |toks| - ps.index, 2
  {
    var kind := ps.current.kind;
    if kind == "IDENTIFIER" then AssignmentStatement(toks, ps)
    else if kind == "KEYWORD_OUTPUT" then OutputStatement(toks, ps)
    else if kind == "KEYWORD_IF" then IfStatement(toks, ps)
    else
      AdvancesRefl(toks, ps);
      Ok(ps)
  }

  /**
   * `if_statement`: `KEYWORD_IF`, `DELIMITER_LEFT_P`, a condition,
   * `DELIMITER_RIGHT_P`, then one nested statement.
   */
  function IfStatement(toks: seq<Token>, ps: PState): (r: PResult)
    requires Valid(toks, ps)
    ensures r.Ok? ==> Advances(toks, ps, r.value) && r.value.index >= ps.index + 3
    ensures r.Ok? ==> ps.current.kind == "KEYWORD_IF" && toks[ps.index].kind == "DELIMITER_LEFT_P"
    decreases |toks| - ps.index, 1
  {
    var p1 :- Match(toks, ps, "KEYWORD_IF");
    var p2 :- Match(toks, p1, "DELIMITER_LEFT_P");
    var p3 :- Condition(toks, p2);
    var p4 :- Match(toks, p3, "DELIMITER_RIGHT_P");
    var p5 :- Statement(toks, p4);
    AdvancesTrans(toks, ps, p1, p2);
    AdvancesTrans(toks, ps, p2, p3);
    AdvancesTrans(toks, ps, p3, p4);
    AdvancesTrans(toks, ps, p4, p5);
    Ok(p5)
  }

  /** The `while` loop of `statements`: it stops at the first kind that starts no statement. */
  function Statements(toks: seq<Token>, ps: PState): (r: PResult)
    requires Valid(toks, ps)
    ensures r.Ok? ==> Advances(toks, ps, r.value)
    ensures r.Ok? ==> !IsStatementStart(r.value.current.kind)
    ensures !IsStatementStart(ps.current.kind) ==> r == Ok(ps)
    decreases |toks| - ps.index
  {
    if IsStatementStart(ps.current.kind) then
      var p1 :- Statement(toks, ps);
      var p2 :- Statements(toks, p1);
      AdvancesTrans(toks, ps, p1, p2);
      Ok(p2)
    else
      AdvancesRefl(toks, ps);
      Ok(ps)
  }

  // ---------------------------------------------------------------------
  // Declarations, program, parse
  // ---------------------------------------------------------------------

  /**
   * `declaration_assignment`: an identifier followed either by
   * `OP_COLON` and a type, or by `OP_ASSIGNMENT` and an expression.
   */
  function DeclarationAssignment(toks: seq<Token>, ps: PState): (r: PResult)
    requires Valid(toks, ps)
    ensures r.Ok? ==> Advances(toks, ps, r.value) && r.value.index >= ps.index + 2
    ensures r.Ok? ==> ps.current.kind == "IDENTIFIER"
  {
    var p1 :- Match(toks, ps, "IDENTIFIER");
    if p1.current.kind != "OP_ASSIGNMENT" then
      var p2 :- Match(toks, p1, "OP_COLON");
      var p3 :- VarType(toks, p2);
      AdvancesTrans(toks, ps, p1, p2);
      AdvancesTrans(toks, ps, p2, p3);
      Ok(p3)
    else
      var p2 :- Match(toks, p1, "OP_ASSIGNMENT");
      var p3 :- Expression(toks, p2);
      AdvancesTrans(toks, ps, p1, p2);
      AdvancesTrans(toks, ps, p2, p3);
      Ok(p3)
  }

  /**
   * The `while` loop of `declarations`: each declaration must be followed
   * by an `ENDLINE`, and the loop stops at the first non-identifier.
   */
  function Declarations(toks: seq<Token>, ps: PState): (r: PResult)
    requires Valid(toks, ps)
    ensures r.Ok? ==> Advances(toks, ps, r.value)
    ensures r.Ok? ==> r.value.current.kind != "IDENTIFIER"
    ensures ps.current.kind != "IDENTIFIER" ==> r == Ok(ps)
    decreases |toks| - ps.index
  {
    if ps.current.kind == "IDENTIFIER" then
      var p1 :- DeclarationAssignment(toks, ps);
      if p1.current.kind != "ENDLINE" then
        Err(NoEndlineAfterDeclaration(p1.current.kind))
      else
        var rest := Declarations(toks, p1);
        if rest.Ok? then
          AdvancesTrans(toks, ps, p1, rest.value);
          rest
        else
          rest
    else
      AdvancesRefl(toks, ps);
      Ok(ps)
  }

  /** `program`: declarations, statements, then an `ENDLINE` that is checked but not consumed. */
  function Program(toks: seq<Token>, ps: PState): (r: PResult)
    requires Valid(toks, ps)
    ensures r.Ok? ==> Advances(toks, ps, r.value)
    ensures r.Ok? ==> r.value.current.kind == "ENDLINE"
  {
    var p1 :- Declarations(toks, ps);
    var p2 :- Statements(toks, p1);
    AdvancesTrans(toks, ps, p1, p2);
    if p2.current.kind != "ENDLINE" then Err(NoEndlineAtEnd(p2.current.kind)) else Ok(p2)
  }

  /**
   * The `while (True)` loop of `parse` from cursor `index`: consume one
   * token, parse a program unit, clear the tree, and stop once every token
   * has been consumed.
   */
  function ParseUnits(toks: seq<Token>, index: nat): (r: PResult)
    requires index <= |toks|
    ensures r.Ok? ==> Valid(toks, r.value) && r.value.index == |toks| && r.value.tree == []
    ensures r.Ok? ==> r.value.current.kind == "ENDLINE"
    decreases |toks| - index
  {
    var start := Consume(toks, index, []);
    if start.Err? then Err(start.error)
    else
      var unit := Program(toks, start.value);
      if unit.Err? then Err(unit.error)
      else
        UnitEnd(toks, start.value);
        var next, current := unit.value.index, unit.value.current;
        if next == |toks| then Ok(PState(next, current, [])) else ParseUnits(toks, next)
  }

  /** Where a successful program unit leaves the cursor. */
  lemma UnitEnd(toks: seq<Token>, ps: PState)
    requires Valid(toks, ps) && Program(toks, ps).Ok?
    ensures var r := Program(toks, ps).value;
      ps.index <= r.index <= |toks| && r.current == toks[r.index - 1] && r.current.kind == "ENDLINE"
  {
  }

  /** `parse`, from the freshly constructed parser. */
  function Parse(toks: seq<Token>): (r: PResult)
    ensures r.Ok? ==> r.value.index == |toks| && r.value.tree == []
    ensures r.Ok? ==> |toks| > 0 && toks[|toks| - 1].kind == "ENDLINE"
  {
    ParseUnits(toks, 0)
  }
}

=== FILE: parser_props.dfy ===
/**
 * What the recogniser guarantees beyond each rule's own contract: the
 * declarations loop runs at most once per program unit, an assignment
 * statement can never be recognised, a program unit stops at the first
 * `ENDLINE` it reaches, and a whole parse ends exactly at the last token.
 */
module ParserProofs {
  import opened Common
  import opened Parser

  /**
   * After one declaration the current kind is `ENDLINE` (or a syntax error
   * is raised), so the `declarations` loop never runs a second time.
   */
  lemma DeclarationsAtMostOnce(toks: seq<Token>, ps: PState)
    requires Valid(toks, ps) && ps.current.kind == "IDENTIFIER"
    ensures var d := DeclarationAssignment(toks, ps);
      && (Declarations(toks, ps).Ok? ==> Declarations(toks, ps) == d && d.value.current.kind == "ENDLINE")
      && (d.Ok? && d.value.current.kind != "ENDLINE" ==>
            Declarations(toks, ps) == Err(NoEndlineAfterDeclaration(d.value.current.kind)))
      && (d.Err? ==> Declarations(toks, ps) == d)
  {
    var d := DeclarationAssignment(toks, ps);
    if d.Ok? && d.value.current.kind == "ENDLINE" {
      assert Declarations(toks, d.value) == Ok(d.value);
    }
  }

  /**
   * `statement` on an identifier calls `assignment_statement`, which
   * matches the kind `':='` against that same identifier token: it always
   * raises, so no statement can start with an identifier.
   */
  lemma IdentifierStatementFails(toks: seq<Token>, ps: PState)
    requires Valid(toks, ps) && ps.current.kind == "IDENTIFIER"
    ensures Statement(toks, ps) == Err(Mismatch(":=", "IDENTIFIER"))
    ensures Statements(toks, ps) == Err(Mismatch(":=", "IDENTIFIER"))
  {
  }

  /**
   * Every token a successful program unit passes over lies before the
   * first `ENDLINE` at or after its start, and the unit stops on that
   * `ENDLINE` without consuming it.
   */
  lemma ProgramEndsAtFirstEndline(toks: seq<Token>, ps: PState)
    requires Valid(toks, ps) && Program(toks, ps).Ok?
    ensures var r := Program(toks, ps).value;
      && toks[r.index - 1].kind == "ENDLINE"
      && (forall k :: ps.index - 1 <= k < r.index - 1 ==> toks[k].kind != "ENDLINE")
      && r.tree == ps.tree + toks[ps.index - 1..r.index - 1]
  {
  }

  /**
   * A program unit that begins with an identifier is a single declaration
   * or assignment-as-declaration: the statements that follow are never
   * reached, because the declaration already stops on its `ENDLINE`.
   */
  lemma DeclarationUnit(toks: seq<Token>, ps: PState)
    requires Valid(toks, ps) && ps.current.kind == "IDENTIFIER"
    ensures Program(toks, ps).Ok? ==> Program(toks, ps) == DeclarationAssignment(toks, ps)
  {
    DeclarationsAtMostOnce(toks, ps);
    var d := Declarations(toks, ps);
    if d.Ok? {
      assert d.value.current.kind == "ENDLINE";
      assert Statements(toks, d.value) == Ok(d.value);
    }
  }

  /** The parser reads at least one token: an empty token list fails on the first `consume`. */
  lemma ParseEmpty()
    ensures Parse([]) == Err(OutOfTokens)
  {
  }

  /** `e` is the position of the first `ENDLINE` at or after `from`. */
  predicate FirstEndline(toks: seq<Token>, from: nat, e: nat) {
    && from <= e < |toks|
    && toks[e].kind == "ENDLINE"
    && forall k :: from <= k < e ==> toks[k].kind != "ENDLINE"
  }

  /**
   * A successful parse splits the tokens into program units at their
   * `ENDLINE` tokens: the unit starting at `index` runs up to the first
   * `ENDLINE` at or after it, and either that is the last token or the
   * parse goes on successfully right after it.
   */
  lemma ParseUnitsSplit(toks: seq<Token>, index: nat)
    requires index <= |toks|
    ensures ParseUnits(toks, index).Ok? ==>
      exists e: nat :: FirstEndline(toks, index, e) && (e == |toks| - 1 || ParseUnits(toks, e + 1).Ok?)
  {
    if ParseUnits(toks, index).Ok? {
      var p0 := Consume(toks, index, []).value;
      var p1 := Program(toks, p0).value;
      ProgramEndsAtFirstEndline(toks, p0);
      var e := p1.index - 1;
      assert FirstEndline(toks, index, e);
      assert e == |toks| - 1 || ParseUnits(toks, e + 1).Ok?;
    }
  }

  // ---------------------------------------------------------------------
  // When the statement rules accept
  // ---------------------------------------------------------------------

  /** The state one successful `match` leaves behind. */
  function Matched(toks: seq<Token>, ps: PState): (r: PState)
    requires Valid(toks, ps) && ps.index < |toks|
    ensures Valid(toks, r) && r.index == ps.index + 1
  {
    PState(ps.index + 1, toks[ps.index], ps.tree + [ps.current])
  }

  lemma MatchedIsMatch(toks: seq<Token>, ps: PState)
    requires Valid(toks, ps) && ps.index < |toks|
    ensures Match(toks, ps, ps.current.kind) == Ok(Matched(toks, ps))
  {
  }

  /**
   * The declaration branch of `declaration_assignment`: after the
   * identifier, a token other than `OP_ASSIGNMENT` must be `OP_COLON`
   * followed by a type kind, and a token must follow the type. Then the
   * declaration consumes exactly those three tokens; otherwise the error is
   * the one the first failing `match` or `type` raises.
   */
  lemma DeclarationColonAccepts(toks: seq<Token>, ps: PState)
    requires Valid(toks, ps) && ps.current.kind == "IDENTIFIER"
    ensures ps.index == |toks| ==> DeclarationAssignment(toks, ps) == Err(OutOfTokens)
    ensures ps.index < |toks| && toks[ps.index].kind != "OP_ASSIGNMENT" ==>
      (DeclarationAssignment(toks, ps).Ok? <==>
        && toks[ps.index].kind == "OP_COLON"
        && ps.index + 2 < |toks|
        && IsTypeKind(toks[ps.index + 1].kind))
    ensures ps.index < |toks| && toks[ps.index].kind != "OP_ASSIGNMENT" && toks[ps.index].kind != "OP_COLON" ==>
      DeclarationAssignment(toks, ps) == Err(Mismatch("OP_COLON", toks[ps.index].kind))
    ensures ps.index + 1 < |toks| && toks[ps.index].kind == "OP_COLON" && !IsTypeKind(toks[ps.index + 1].kind) ==>
      DeclarationAssignment(toks, ps) == Err(InvalidType(toks[ps.index + 1].kind))
    ensures DeclarationAssignment(toks, ps).Ok? && toks[ps.index].kind != "OP_ASSIGNMENT" ==>
      DeclarationAssignment(toks, ps).value ==
        PState(ps.index + 3, toks[ps.index + 2], ps.tree + toks[ps.index - 1..ps.index + 2])
  {
    if ps.index < |toks| {
      var p1 := Matched(toks, ps);
      MatchedIsMatch(toks, ps);
      if p1.current.kind == "OP_COLON" && p1.index < |toks| {
        var p2 := Matched(toks, p1);
        MatchedIsMatch(toks, p1);
        if IsTypeKind(p2.current.kind) && p2.index < |toks| {
          MatchedIsMatch(toks, p2);
        }
      }
    }
  }

  /**
   * The assignment branch of `declaration_assignment`: after the
   * identifier and `OP_ASSIGNMENT` it is exactly `expression` on the state
   * two matches later, provided a token follows the operator.
   */
  lemma DeclarationAssignmentBranch(toks: seq<Token>, ps: PState)
    requires Valid(toks, ps) && ps.current.kind == "IDENTIFIER"
    requires ps.index < |toks| && toks[ps.index].kind == "OP_ASSIGNMENT"
    ensures ps.index + 1 < |toks| ==>
      DeclarationAssignment(toks, ps) == Expression(toks, Matched(toks, Matched(toks, ps)))
    ensures ps.index + 1 == |toks| ==> DeclarationAssignment(toks, ps) == Err(OutOfTokens)
  {
    var p1 := Matched(toks, ps);
    MatchedIsMatch(toks, ps);
    if p1.index < |toks| {
      MatchedIsMatch(toks, p1);
    }
  }

  /**
   * `output_statement` accepts exactly when the current token is
   * `KEYWORD_OUTPUT`, the next is `OP_LEFTSHIFT`, a token follows it, and
   * `output_params` accepts from there; it then returns what
   * `output_params` returns.
   */
  lemma OutputStatementAccepts(toks: seq<Token>, ps: PState)
    requires Valid(toks, ps)
    ensures OutputStatement(toks, ps).Ok? <==>
      && ps.current.kind == "KEYWORD_OUTPUT"
      && ps.index + 1 < |toks|
      && toks[ps.index].kind == "OP_LEFTSHIFT"
      && OutputParams(toks, Matched(toks, Matched(toks, ps))).Ok?
    ensures ps.current.kind == "KEYWORD_OUTPUT" && ps.index + 1 < |toks| && toks[ps.index].kind == "OP_LEFTSHIFT" ==>
      OutputStatement(toks, ps) == OutputParams(toks, Matched(toks, Matched(toks, ps)))
    ensures ps.current.kind != "KEYWORD_OUTPUT" ==>
      OutputStatement(toks, ps) == Err(Mismatch("KEYWORD_OUTPUT", ps.current.kind))
  {
    if ps.current.kind == "KEYWORD_OUTPUT" && ps.index < |toks| {
      var p1 := Matched(toks, ps);
      MatchedIsMatch(toks, ps);
      if p1.current.kind == "OP_LEFTSHIFT" && p1.index < |toks| {
        MatchedIsMatch(toks, p1);
      }
    }
  }

  /**
   * `if_statement` on `KEYWORD_IF DELIMITER_LEFT_P`: it accepts exactly
   * when the condition after the parenthesis accepts, stops on
   * `DELIMITER_RIGHT_P` with a token after it, and the nested statement
   * accepts from there; it then returns what the nested statement returns.
   * A failing condition is passed on, and a condition that stops elsewhere
   * is a mismatch on the closing parenthesis.
   */
  lemma IfStatementAccepts(toks: seq<Token>, ps: PState)
    requires Valid(toks, ps) && ps.current.kind == "KEYWORD_IF"
    requires ps.index + 1 < |toks| && toks[ps.index].kind == "DELIMITER_LEFT_P"
    ensures var c := Condition(toks, Matched(toks, Matched(toks, ps)));
      && (IfStatement(toks, ps).Ok? <==>
            && c.Ok?
            && c.value.current.kind == "DELIMITER_RIGHT_P"
            && c.value.index < |toks|
            && Statement(toks, Matched(toks, c.value)).Ok?)
      && (c.Ok? && c.value.current.kind == "DELIMITER_RIGHT_P" && c.value.index < |toks| ==>
            IfStatement(toks, ps) == Statement(toks, Matched(toks, c.value)))
      && (c.Err? ==> IfStatement(toks, ps) == Err(c.error))
      && (c.Ok? && c.value.current.kind != "DELIMITER_RIGHT_P" ==>
            IfStatement(toks, ps) == Err(Mismatch("DELIMITER_RIGHT_P", c.value.current.kind)))
  {
    var p1 := Matched(toks, ps);
    MatchedIsMatch(toks, ps);
    var p2 := Matched(toks, p1);
    MatchedIsMatch(toks, p1);
    var c := Condition(toks, p2);
    if c.Ok? && c.value.current.kind == "DELIMITER_RIGHT_P" && c.value.index < |toks| {
      MatchedIsMatch(toks, c.value);
    }
  }

  // ---------------------------------------------------------------------
  // Whole parses that succeed
  // ---------------------------------------------------------------------

  /** A declaration `IDENTIFIER OP_COLON type ENDLINE` at position `i`. */
  predicate DeclarationLine(toks: seq<Token>, i: nat) {
    && i + 4 <= |toks|
    && toks[i].kind == "IDENTIFIER" && toks[i + 1].kind == "OP_COLON"
    && IsTypeKind(toks[i + 2].kind) && toks[i + 3].kind == "ENDLINE"
  }

  /** An assignment-as-declaration `IDENTIFIER OP_ASSIGNMENT operand ENDLINE` at `i`. */
  predicate AssignmentLine(toks: seq<Token>, i: nat) {
    && i + 4 <= |toks|
    && toks[i].kind == "IDENTIFIER" && toks[i + 1].kind == "OP_ASSIGNMENT"
    && IsOperandToken(toks[i + 2].kind) && toks[i + 3].kind == "ENDLINE"
  }

  /** An output `KEYWORD_OUTPUT OP_LEFTSHIFT (string | operand) ENDLINE` at `i`. */
  predicate OutputLine(toks: seq<Token>, i: nat) {
    && i + 4 <= |toks|
    && toks[i].kind == "KEYWORD_OUTPUT" && toks[i + 1].kind == "OP_LEFTSHIFT"
    && (toks[i + 2].kind == "LITERAL_STRING" || IsOperandToken(toks[i + 2].kind))
    && toks[i + 3].kind == "ENDLINE"
  }

  predicate SimpleUnit(toks: seq<Token>, i: nat) {
    DeclarationLine(toks, i) || AssignmentLine(toks, i) || OutputLine(toks, i)
  }

  /**
   * An assignment-as-declaration of a binary expression,
   * `IDENTIFIER OP_ASSIGNMENT operand op operand ENDLINE`, at `i`.
   */
  predicate BinaryAssignmentLine(toks: seq<Token>, i: nat) {
    && i + 6 <= |toks|
    && toks[i].kind == "IDENTIFIER" && toks[i + 1].kind == "OP_ASSIGNMENT"
    && IsOperandToken(toks[i + 2].kind)
    && (IsAdditive(toks[i + 3].kind) || IsMultiplicative(toks[i + 3].kind))
    && IsOperandToken(toks[i + 4].kind) && toks[i + 5].kind == "ENDLINE"
  }

  /**
   * An if statement guarding an output,
   * `KEYWORD_IF DELIMITER_LEFT_P operand OP_RELATIONAL_GREATERTHANOREQUAL operand
   * DELIMITER_RIGHT_P KEYWORD_OUTPUT OP_LEFTSHIFT (string | operand) ENDLINE`,
   * at `i`.
   */
  predicate IfLine(toks: seq<Token>, i: nat) {
    && i + 10 <= |toks|
    && toks[i].kind == "KEYWORD_IF" && toks[i + 1].kind == "DELIMITER_LEFT_P"
    && IsOperandToken(toks[i + 2].kind) && toks[i + 3].kind == "OP_RELATIONAL_GREATERTHANOREQUAL"
    && IsOperandToken(toks[i + 4].kind) && toks[i + 5].kind == "DELIMITER_RIGHT_P"
    && toks[i + 6].kind == "KEYWORD_OUTPUT" && toks[i + 7].kind == "OP_LEFTSHIFT"
    && (toks[i + 8].kind == "LITERAL_STRING" || IsOperandToken(toks[i + 8].kind))
    && toks[i + 9].kind == "ENDLINE"
  }

  /** The length of the unit of one of the shapes above at `i`, or 0 when there is none. */
  function UnitLength(toks: seq<Token>, i: nat): (n: nat)
    ensures n > 0 ==> i + n <= |toks| && toks[i + n - 1].kind == "ENDLINE"
  {
    if SimpleUnit(toks, i) then 4
    else if BinaryAssignmentLine(toks, i) then 6
    else if IfLine(toks, i) then 10
    else 0
  }

  /** The state after `consume` at position `i`, as `parse` starts a unit. */
  function UnitStart(toks: seq<Token>, i: nat): (r: PState)
    requires i < |toks|
    ensures Valid(toks, r)
  {
    PState(i + 1, toks[i], [])
  }

  /**
   * An identifier or numeric literal followed by a token that is neither
   * an additive nor a multiplicative operator is a whole expression of one
   * token.
   */
  lemma OperandExpression(toks: seq<Token>, ps: PState)
    requires Valid(toks, ps) && IsOperandToken(ps.current.kind) && ps.index < |toks|
    requires !IsAdditive(toks[ps.index].kind) && !IsMultiplicative(toks[ps.index].kind)
    ensures Expression(toks, ps) == Ok(Matched(toks, ps))
  {
    var p1 := Matched(toks, ps);
    assert Factor(toks, ps) == Ok(p1);
    assert Term(toks, ps) == Ok(p1);
  }

  /**
   * A current kind that is no operand, no `'('` and no arithmetic operator
   * is an empty expression: `factor` accepts it without consuming anything
   * and neither loop runs.
   */
  lemma EmptyExpression(toks: seq<Token>, ps: PState)
    requires Valid(toks, ps) && !IsOperandToken(ps.current.kind) && ps.current.kind != "("
    requires !IsAdditive(ps.current.kind) && !IsMultiplicative(ps.current.kind)
    ensures Expression(toks, ps) == Ok(ps)
  {
    assert Factor(toks, ps) == Ok(ps);
    assert Term(toks, ps) == Ok(ps);
  }

  /**
   * One iteration of the `+`/`-` loop over an operand, followed by a kind
   * that is no arithmetic operator: the loop consumes the operator and the
   * operand and stops.
   */
  lemma AdditiveTail(toks: seq<Token>, ps: PState)
    requires Valid(toks, ps) && IsAdditive(ps.current.kind) && ps.index + 1 < |toks|
    requires IsOperandToken(toks[ps.index].kind)
    requires !IsAdditive(toks[ps.index + 1].kind) && !IsMultiplicative(toks[ps.index + 1].kind)
    ensures SimpleTail(toks, ps) == Ok(Matched(toks, Matched(toks, ps)))
  {
    var p1 := Matched(toks, ps);
    MatchedIsMatch(toks, ps);
    var p2 := Matched(toks, p1);
    MatchedIsMatch(toks, p1);
    assert Factor(toks, p1) == Ok(p2);
    assert Term(toks, p1) == Ok(p2);
    assert SimpleTail(toks, p2) == Ok(p2);
  }

  /** The same for one iteration of the `*`/`/` loop. */
  lemma MultiplicativeTail(toks: seq<Token>, ps: PState)
    requires Valid(toks, ps) && IsMultiplicative(ps.current.kind) && ps.index + 1 < |toks|
    requires IsOperandToken(toks[ps.index].kind)
    requires !IsMultiplicative(toks[ps.index + 1].kind)
    ensures TermTail(toks, ps) == Ok(Matched(toks, Matched(toks, ps)))
  {
    var p1 := Matched(toks, ps);
    MatchedIsMatch(toks, ps);
    var p2 := Matched(toks, p1);
    MatchedIsMatch(toks, p1);
    assert Factor(toks, p1) == Ok(p2);
    assert TermTail(toks, p2) == Ok(p2);
  }

  /**
   * `operand op operand`, with `op` any of the four arithmetic operators
   * and followed by a kind that is no arithmetic operator, is a whole
   * expression of three tokens.
   */
  lemma BinaryExpression(toks: seq<Token>, ps: PState)
    requires Valid(toks, ps) && IsOperandToken(ps.current.kind) && ps.index + 2 < |toks|
    requires IsAdditive(toks[ps.index].kind) || IsMultiplicative(toks[ps.index].kind)
    requires IsOperandToken(toks[ps.index + 1].kind)
    requires !IsAdditive(toks[ps.index + 2].kind) && !IsMultiplicative(toks[ps.index + 2].kind)
    ensures Expression(toks, ps) == Ok(Matched(toks, Matched(toks, Matched(toks, ps))))
  {
    var p1 := Matched(toks, ps);
    MatchedIsMatch(toks, ps);
    assert Factor(toks, ps) == Ok(p1);
    var p3 := Matched(toks, Matched(toks, p1));
    if IsAdditive(p1.current.kind) {
      assert TermTail(toks, p1) == Ok(p1);
      assert Term(toks, ps) == Ok(p1);
      AdditiveTail(toks, p1);
    } else {
      MultiplicativeTail(toks, p1);
      assert Term(toks, ps) == Ok(p3);
      assert SimpleTail(toks, p3) == Ok(p3);
    }
  }

  /**
   * A parenthesised factor: on `'('` it accepts exactly when the
   * expression after the parenthesis accepts and stops on `')'` with a
   * token after it, and then it ends right after that `')'`. With no token
   * after the `'('`, the first `match` runs out of tokens.
   */
  lemma ParenthesisAccepts(toks: seq<Token>, ps: PState)
    requires Valid(toks, ps) && ps.current.kind == "("
    ensures ps.index == |toks| ==> Factor(toks, ps) == Err(OutOfTokens)
    ensures ps.index < |toks| ==>
      var e := Expression(toks, Matched(toks, ps));
      && (Factor(toks, ps).Ok? <==> e.Ok? && e.value.current.kind == ")" && e.value.index < |toks|)
      && (Factor(toks, ps).Ok? ==> Factor(toks, ps) == Ok(Matched(toks, e.value)))
  {
    if ps.index < |toks| {
      MatchedIsMatch(toks, ps);
      var e := Expression(toks, Matched(toks, ps));
      if e.Ok? && e.value.current.kind == ")" && e.value.index < |toks| {
        MatchedIsMatch(toks, e.value);
      }
    }
  }

  /** `'(' operand ')'` with a token after it is a factor of three tokens. */
  lemma ParenthesisedOperand(toks: seq<Token>, ps: PState)
    requires Valid(toks, ps) && ps.current.kind == "(" && ps.index + 2 < |toks|
    requires IsOperandToken(toks[ps.index].kind) && toks[ps.index + 1].kind == ")"
    ensures Factor(toks, ps) == Ok(Matched(toks, Matched(toks, Matched(toks, ps))))
  {
    var p1 := Matched(toks, ps);
    OperandExpression(toks, p1);
    ParenthesisAccepts(toks, ps);
  }

  /**
   * A condition of one operand, followed by a kind that neither extends
   * the expression nor starts a relational expression, is that one token:
   * the relational expression after it is empty.
   */
  lemma OperandCondition(toks: seq<Token>, ps: PState)
    requires Valid(toks, ps) && IsOperandToken(ps.current.kind) && ps.index < |toks|
    requires var k := toks[ps.index].kind;
      && !IsAdditive(k) && !IsMultiplicative(k) && !IsOperandToken(k)
      && k != "(" && k != "OP_RELATIONAL_GREATERTHANOREQUAL"
    ensures Condition(toks, ps) == Ok(Matched(toks, ps))
  {
    var p1 := Matched(toks, ps);
    OperandExpression(toks, ps);
    EmptyExpression(toks, p1);
    assert RelationalExpression(toks, p1) == Ok(p1);
  }

  /**
   * A comparison `operand OP_RELATIONAL_GREATERTHANOREQUAL operand`,
   * followed by a kind that is no arithmetic operator, is a condition of
   * three tokens.
   */
  lemma ComparisonCondition(toks: seq<Token>, ps: PState)
    requires Valid(toks, ps) && IsOperandToken(ps.current.kind) && ps.index + 2 < |toks|
    requires toks[ps.index].kind == "OP_RELATIONAL_GREATERTHANOREQUAL"
    requires IsOperandToken(toks[ps.index + 1].kind)
    requires !IsAdditive(toks[ps.index + 2].kind) && !IsMultiplicative(toks[ps.index + 2].kind)
    ensures Condition(toks, ps) == Ok(Matched(toks, Matched(toks, Matched(toks, ps))))
  {
    var p1 := Matched(toks, ps);
    OperandExpression(toks, ps);
    var p2 := Matched(toks, p1);
    MatchedIsMatch(toks, p1);
    OperandExpression(toks, p2);
    assert RelationalExpression(toks, p1) == Ok(Matched(toks, p2));
  }

  /**
   * `KEYWORD_OUTPUT OP_LEFTSHIFT` and a string or operand, followed by a
   * kind that is no arithmetic operator, is a statement of three tokens.
   */
  lemma OutputStatementAt(toks: seq<Token>, ps: PState)
    requires Valid(toks, ps) && ps.current.kind == "KEYWORD_OUTPUT" && ps.index + 2 < |toks|
    requires toks[ps.index].kind == "OP_LEFTSHIFT"
    requires toks[ps.index + 1].kind == "LITERAL_STRING" || IsOperandToken(toks[ps.index + 1].kind)
    requires !IsAdditive(toks[ps.index + 2].kind) && !IsMultiplicative(toks[ps.index + 2].kind)
    ensures Statement(toks, ps) == Ok(Matched(toks, Matched(toks, Matched(toks, ps))))
  {
    OutputStatementAccepts(toks, ps);
    var p2 := Matched(toks, Matched(toks, ps));
    var p3 := Matched(toks, p2);
    MatchedIsMatch(toks, p2);
    if p2.current.kind != "LITERAL_STRING" {
      OperandExpression(toks, p2);
    }
    assert OutputParams(toks, p2) == Ok(p3);
  }

  lemma DeclarationLineUnit(toks: seq<Token>, i: nat)
    requires DeclarationLine(toks, i)
    ensures Program(toks, UnitStart(toks, i)).Ok?
    ensures Program(toks, UnitStart(toks, i)).value.index == i + 4
  {
    var ps := UnitStart(toks, i);
    DeclarationColonAccepts(toks, ps);
    var d := DeclarationAssignment(toks, ps).value;
    DeclarationsAtMostOnce(toks, ps);
    assert Statements(toks, d) == Ok(d);
  }

  lemma AssignmentLineUnit(toks: seq<Token>, i: nat)
    requires AssignmentLine(toks, i)
    ensures Program(toks, UnitStart(toks, i)).Ok?
    ensures Program(toks, UnitStart(toks, i)).value.index == i + 4
  {
    var ps := UnitStart(toks, i);
    DeclarationAssignmentBranch(toks, ps);
    var p2 := Matched(toks, Matched(toks, ps));
    var p3 := Matched(toks, p2);
    OperandExpression(toks, p2);
    DeclarationsAtMostOnce(toks, ps);
    assert Statements(toks, p3) == Ok(p3);
  }

  /**
   * An assignment with nothing between `OP_ASSIGNMENT` and `ENDLINE` is an
   * accepted unit: the expression after the operator is empty.
   */
  lemma EmptyAssignmentUnit(toks: seq<Token>, i: nat)
    requires i + 3 <= |toks| && toks[i].kind == "IDENTIFIER"
    requires toks[i + 1].kind == "OP_ASSIGNMENT" && toks[i + 2].kind == "ENDLINE"
    ensures Program(toks, UnitStart(toks, i)).Ok?
    ensures Program(toks, UnitStart(toks, i)).value.index == i + 3
  {
    var ps := UnitStart(toks, i);
    DeclarationAssignmentBranch(toks, ps);
    var p2 := Matched(toks, Matched(toks, ps));
    EmptyExpression(toks, p2);
    DeclarationsAtMostOnce(toks, ps);
    assert Statements(toks, p2) == Ok(p2);
  }

  lemma OutputLineUnit(toks: seq<Token>, i: nat)
    requires OutputLine(toks, i)
    ensures Program(toks, UnitStart(toks, i)).Ok?
    ensures Program(toks, UnitStart(toks, i)).value.index == i + 4
  {
    var ps := UnitStart(toks, i);
    assert Declarations(toks, ps) == Ok(ps);
    OutputStatementAt(toks, ps);
    var p3 := Matched(toks, Matched(toks, Matched(toks, ps)));
    assert Statements(toks, p3) == Ok(p3);
    assert Statements(toks, ps) == Ok(p3);
  }

  lemma BinaryAssignmentUnit(toks: seq<Token>, i: nat)
    requires BinaryAssignmentLine(toks, i)
    ensures Program(toks, UnitStart(toks, i)).Ok?
    ensures Program(toks, UnitStart(toks, i)).value.index == i + 6
  {
    var ps := UnitStart(toks, i);
    DeclarationAssignmentBranch(toks, ps);
    var p2 := Matched(toks, Matched(toks, ps));
    var p5 := Matched(toks, Matched(toks, Matched(toks, p2)));
    BinaryExpression(toks, p2);
    DeclarationsAtMostOnce(toks, ps);
    assert Statements(toks, p5) == Ok(p5);
  }

  /** The state after the six tokens of an if statement's guard. */
  function GuardEnd(toks: seq<Token>, ps: PState): (r: PState)
    requires Valid(toks, ps) && ps.index + 5 < |toks|
    ensures Valid(toks, r) && r.index == ps.index + 6 && r.current == toks[ps.index + 5]
  {
    var p2 := Matched(toks, Matched(toks, ps));
    Matched(toks, Matched(toks, Matched(toks, Matched(toks, p2))))
  }

  /**
   * `KEYWORD_IF DELIMITER_LEFT_P operand OP_RELATIONAL_GREATERTHANOREQUAL
   * operand DELIMITER_RIGHT_P`, with a token after it, is exactly the
   * statement that follows those six tokens.
   */
  lemma IfGuardAt(toks: seq<Token>, ps: PState)
    requires Valid(toks, ps) && ps.current.kind == "KEYWORD_IF" && ps.index + 5 < |toks|
    requires toks[ps.index].kind == "DELIMITER_LEFT_P" && IsOperandToken(toks[ps.index + 1].kind)
    requires toks[ps.index + 2].kind == "OP_RELATIONAL_GREATERTHANOREQUAL"
    requires IsOperandToken(toks[ps.index + 3].kind) && toks[ps.index + 4].kind == "DELIMITER_RIGHT_P"
    ensures IfStatement(toks, ps) == Statement(toks, GuardEnd(toks, ps))
  {
    IfStatementAccepts(toks, ps);
    var p2 := Matched(toks, Matched(toks, ps));
    ComparisonCondition(toks, p2);
  }

  /**
   * Such a guard followed by an output statement of three tokens and a
   * kind that is no arithmetic operator is an if statement of nine tokens.
   */
  lemma IfStatementAt(toks: seq<Token>, ps: PState)
    requires Valid(toks, ps) && ps.current.kind == "KEYWORD_IF" && ps.index + 8 < |toks|
    requires toks[ps.index].kind == "DELIMITER_LEFT_P" && IsOperandToken(toks[ps.index + 1].kind)
    requires toks[ps.index + 2].kind == "OP_RELATIONAL_GREATERTHANOREQUAL"
    requires IsOperandToken(toks[ps.index + 3].kind) && toks[ps.index + 4].kind == "DELIMITER_RIGHT_P"
    requires toks[ps.index + 5].kind == "KEYWORD_OUTPUT" && toks[ps.index + 6].kind == "OP_LEFTSHIFT"
    requires toks[ps.index + 7].kind == "LITERAL_STRING" || IsOperandToken(toks[ps.index + 7].kind)
    requires !IsAdditive(toks[ps.index + 8].kind) && !IsMultiplicative(toks[ps.index + 8].kind)
    ensures IfStatement(toks, ps).Ok? && IfStatement(toks, ps).value.index == ps.index + 9
  {
    var p6 := GuardEnd(toks, ps);
    assert Statement(toks, p6).Ok? && Statement(toks, p6).value.index == ps.index + 9 by {
      OutputStatementAt(toks, p6);
    }
    IfGuardAt(toks, ps);
  }

  lemma IfLineUnit(toks: seq<Token>, i: nat)
    requires IfLine(toks, i)
    ensures Program(toks, UnitStart(toks, i)).Ok?
    ensures Program(toks, UnitStart(toks, i)).value.index == i + 10
  {
    var ps := UnitStart(toks, i);
    assert Declarations(toks, ps) == Ok(ps);
    IfStatementAt(toks, ps);
    var q := IfStatement(toks, ps).value;
    assert Statement(toks, ps) == Ok(q);
    assert q.current == toks[i + 9];
    assert Statements(toks, q) == Ok(q);
    assert Statements(toks, ps) == Ok(q);
  }

  /**
   * A unit of any of the shapes above is one accepted program unit, and it
   * ends right after its own `ENDLINE`.
   */
  lemma UnitProgram(toks: seq<Token>, i: nat)
    requires UnitLength(toks, i) > 0
    ensures Program(toks, UnitStart(toks, i)).Ok?
    ensures Program(toks, UnitStart(toks, i)).value.index == i + UnitLength(toks, i)
  {
    if DeclarationLine(toks, i) {
      DeclarationLineUnit(toks, i);
    } else if AssignmentLine(toks, i) {
      AssignmentLineUnit(toks, i);
    } else if OutputLine(toks, i) {
      OutputLineUnit(toks, i);
    } else if BinaryAssignmentLine(toks, i) {
      BinaryAssignmentUnit(toks, i);
    } else {
      IfLineUnit(toks, i);
    }
  }

  /**
   * One iteration of the `parse` loop: after the unit accepted from
   * position `i`, which stops at `q`, the loop ends with an empty tree when
   * `q` is at the last token and otherwise goes on at `q.index`.
   */
  lemma ParseUnitsAfter(toks: seq<Token>, i: nat, start: PState, q: PState)
    requires i < |toks| && start == UnitStart(toks, i) && Program(toks, start) == Ok(q)
    ensures q.index == |toks| ==> ParseUnits(toks, i) == Ok(PState(|toks|, q.current, []))
    ensures q.index < |toks| ==> ParseUnits(toks, i) == ParseUnits(toks, q.index)
  {
    assert Consume(toks, i, []) == Ok(start);
  }

  /** From position `i` to the end, the tokens are units one after another. */
  predicate SimpleUnitsFrom(toks: seq<Token>, i: nat)
    decreases |toks| - i
  {
    var n := UnitLength(toks, i);
    n > 0 && (i + n == |toks| || SimpleUnitsFrom(toks, i + n))
  }

  /** Units from position `i` on are accepted by the `parse` loop from `i`. */
  lemma {:induction false} SimpleUnitsParse(toks: seq<Token>, i: nat)
    requires SimpleUnitsFrom(toks, i)
    ensures ParseUnits(toks, i) == Ok(PState(|toks|, toks[|toks| - 1], []))
    decreases |toks| - i
  {
    var n := UnitLength(toks, i);
    UnitProgram(toks, i);
    var start := UnitStart(toks, i);
    var q := Program(toks, start).value;
    UnitEnd(toks, start);
    ParseUnitsAfter(toks, i, start, q);
    if i + n < |toks| {
      SimpleUnitsParse(toks, i + n);
    }
  }

  /**
   * A token list of units parses: the whole list is consumed and the parse
   * ends on its last `ENDLINE`.
   */
  lemma SimpleProgramParses(toks: seq<Token>)
    requires SimpleUnitsFrom(toks, 0)
    ensures Parse(toks) == Ok(PState(|toks|, toks[|toks| - 1], []))
  {
    SimpleUnitsParse(toks, 0);
  }

  /** The declaration `x : integer ;` as the lexer and driver classify it. */
  lemma SingleDeclarationParses()
    ensures Parse([Token("IDENTIFIER", "x"), Token("OP_COLON", ":"),
                   Token("KEYWORD_INT", "integer"), Token("ENDLINE", ";")]).Ok?
  {
    var toks := [Token("IDENTIFIER", "x"), Token("OP_COLON", ":"),
                 Token("KEYWORD_INT", "integer"), Token("ENDLINE", ";")];
    assert DeclarationLine(toks, 0);
    assert SimpleUnitsFrom(toks, 0);
    SimpleProgramParses(toks);
  }

  /**
   * The units start and end where they did in a longer list: a unit of
   * length `n` at `|p| + j` of `p + t` is the unit at `j` of `t`.
   */
  lemma UnitLengthShift(p: seq<Token>, t: seq<Token>, j: nat)
    ensures UnitLength(p + t, |p| + j) == UnitLength(t, j)
  {
    var s := p + t;
    assert forall k :: j <= k < |t| ==> s[|p| + k] == t[k];
  }

  /** A unit that fills `u` is still the unit at 0 of `u` followed by anything. */
  lemma UnitLengthPrefix(u: seq<Token>, t: seq<Token>)
    requires UnitLength(u, 0) == |u| > 0
    ensures UnitLength(u + t, 0) == |u|
  {
    var s := u + t;
    assert forall k :: 0 <= k < |u| ==> s[k] == u[k];
    if SimpleUnit(u, 0) {
      assert SimpleUnit(s, 0);
    } else if BinaryAssignmentLine(u, 0) {
      assert !SimpleUnit(s, 0) && BinaryAssignmentLine(s, 0);
    } else {
      assert !SimpleUnit(s, 0) && !BinaryAssignmentLine(s, 0) && IfLine(s, 0);
    }
  }

  lemma {:induction false} UnitsShift(p: seq<Token>, t: seq<Token>, j: nat)
    requires SimpleUnitsFrom(t, j)
    ensures SimpleUnitsFrom(p + t, |p| + j)
    decreases |t| - j
  {
    UnitLengthShift(p, t, j);
    var n := UnitLength(t, j);
    if j + n < |t| {
      UnitsShift(p, t, j + n);
    }
  }

  /** A whole unit followed by a series of units is a series of units. */
  lemma UnitsCons(u: seq<Token>, t: seq<Token>)
    requires UnitLength(u, 0) == |u| > 0
    requires t == [] || SimpleUnitsFrom(t, 0)
    ensures SimpleUnitsFrom(u + t, 0)
  {
    UnitLengthPrefix(u, t);
    if t != [] {
      UnitsShift(u, t, 0);
    } else {
      assert u + t == u;
    }
  }

  // The lines of the sample program at the end of Parser.py, as tokens.

  function SampleDeclarationX(): seq<Token> {
    [Token("IDENTIFIER", "x"), Token("OP_COLON", ":"), Token("KEYWORD_INT", "integer"), Token("ENDLINE", ";")]
  }

  function SampleDeclarationY(): seq<Token> {
    [Token("IDENTIFIER", "y"), Token("OP_COLON", ":"), Token("KEYWORD_DOUBLE", "double"), Token("ENDLINE", ";")]
  }

  function SampleAssignment(): seq<Token> {
    [Token("IDENTIFIER", "x"), Token("OP_ASSIGNMENT", ":="), Token("IDENTIFIER", "-5"), Token("ENDLINE", ";")]
  }

  function SampleSum(): seq<Token> {
    [Token("IDENTIFIER", "x"), Token("OP_ASSIGNMENT", ":="), Token("IDENTIFIER", "x"),
     Token("OP_ARITHMETIC_PLUS", "+"), Token("IDENTIFIER", "y"), Token("ENDLINE", ";")]
  }

  function SampleOutputString(): seq<Token> {
    [Token("KEYWORD_OUTPUT", "output"), Token("OP_LEFTSHIFT", "<<"),
     Token("LITERAL_STRING", "\"Hello World!\""), Token("ENDLINE", ";")]
  }

  function SampleOutputOperand(): seq<Token> {
    [Token("KEYWORD_OUTPUT", "output"), Token("OP_LEFTSHIFT", "<<"), Token("IDENTIFIER", "-5"), Token("ENDLINE", ";")]
  }

  function SampleIf(): seq<Token> {
    [Token("KEYWORD_IF", "if"), Token("DELIMITER_LEFT_P", "("), Token("IDENTIFIER", "x"),
     Token("OP_RELATIONAL_GREATERTHANOREQUAL", ">="), Token("IDENTIFIER", "-5"), Token("DELIMITER_RIGHT_P", ")"),
     Token("KEYWORD_OUTPUT", "output"), Token("OP_LEFTSHIFT", "<<"), Token("IDENTIFIER", "-5"), Token("ENDLINE", ";")]
  }

  /** The token list of the sample program, line after line. */
  function SampleTokens(): (r: seq<Token>)
    ensures |r| == 36 && r[35] == Token("ENDLINE", ";")
  {
    SampleDeclarationX() + (SampleDeclarationY() + (SampleAssignment() + (SampleSum() +
      (SampleOutputString() + (SampleOutputOperand() + SampleIf())))))
  }

  lemma SampleLines()
    ensures UnitLength(SampleDeclarationX(), 0) == 4
    ensures UnitLength(SampleDeclarationY(), 0) == 4
    ensures UnitLength(SampleAssignment(), 0) == 4
    ensures UnitLength(SampleSum(), 0) == 6
    ensures UnitLength(SampleOutputString(), 0) == 4
    ensures UnitLength(SampleOutputOperand(), 0) == 4
    ensures UnitLength(SampleIf(), 0) == 10
  {
    assert DeclarationLine(SampleDeclarationX(), 0);
    assert DeclarationLine(SampleDeclarationY(), 0);
    assert AssignmentLine(SampleAssignment(), 0);
    assert BinaryAssignmentLine(SampleSum(), 0);
    assert OutputLine(SampleOutputString(), 0);
    assert OutputLine(SampleOutputOperand(), 0);
    assert IfLine(SampleIf(), 0);
  }

  /**
   * The sample program at the end of Parser.py is accepted: every token is
   * consumed and the parse ends on its last `ENDLINE`.
   */
  lemma SampleProgramParses()
    ensures Parse(SampleTokens()) == Ok(PState(36, Token("ENDLINE", ";"), []))
  {
    SampleLines();
    var t6 := SampleIf();
    UnitsCons(t6, []);
    assert t6 + [] == t6;
    var t5 := SampleOutputOperand() + t6;
    UnitsCons(SampleOutputOperand(), t6);
    var t4 := SampleOutputString() + t5;
    UnitsCons(SampleOutputString(), t5);
    var t3 := SampleSum() + t4;
    UnitsCons(SampleSum(), t4);
    var t2 := SampleAssignment() + t3;
    UnitsCons(SampleAssignment(), t3);
    var t1 := SampleDeclarationY() + t2;
    UnitsCons(SampleDeclarationY(), t2);
    UnitsCons(SampleDeclarationX(), t1);
    SimpleProgramParses(SampleTokens());
  }
}

=== FILE: syntax.dfy ===
/**
 * The AST-building parser of syntaxAnalyzer.py.
 *
 * The state is the cursor `index` (the Python `token_index`) and the
 * `current` token, which is missing until the first advance and afterwards
 * is always the token just before the cursor. Each rule returns the node
 * it builds, a single-key dictionary modelled as a name with a list of
 * items, together with the state it leaves behind, or the failure that
 * stops the original. Two of those failures stand for non-termination in
 * the original: a `statements` iteration that consumes nothing repeats
 * forever, and a `'('` factor that cannot advance recurses forever.
 */
module Syntax {
  import opened Common

  datatype Failure =
    | SyntaxError(expected: string, found: string)  // the exception raised by `error`
    | NoCurrentToken                                // `current_token[0]` while it is None
    | RecursionLimit                                // `factor` re-entered on the same state
    | NoProgress                                    // `statements` looping on the same state

  /** The text of the exception raised by `error`. */
  function Message(f: Failure): (r: string)
    ensures StartsWith(r, "Syntax Error: ") <==> f.SyntaxError?
    ensures f.SyntaxError? ==>
      StartsWith(r, "Syntax Error: Expected " + f.expected) && EndsWith(r, ", found " + f.found)
  {
    match f
    case SyntaxError(e, g) => "Syntax Error: Expected " + e + ", found " + g
    case NoCurrentToken =>
      FirstCharDiffers("'NoneType' object is not subscriptable", "Syntax Error: ");
      "'NoneType' object is not subscriptable"
    case RecursionLimit =>
      FirstCharDiffers("maximum recursion depth exceeded", "Syntax Error: ");
      "maximum recursion depth exceeded"
    case NoProgress =>
      // The original never returns here, so this text is the model's own.
      FirstCharDiffers("statements loop does not terminate", "Syntax Error: ");
      "statements loop does not terminate"
  }

  /** A node `{name: items}`; an item is a nested node or a raw token. */
  datatype Node = Node(name: string, items: seq<Item>)
  datatype Item = Child(node: Node) | Leaf(token: Token)

  datatype SState = SState(index: nat, current: Option<Token>)

  /** A rule's node and the state after it. */
  datatype Parsed = Parsed(node: Node, next: SState)

  /** The items collected by a loop and the state after it. */
  datatype Many = Many(items: seq<Item>, next: SState)

  /**
   * The cursor stays within the tokens, `current` is missing exactly
   * before the first advance, and otherwise it is the token before the
   * cursor.
   */
  predicate Valid(toks: seq<Token>, ss: SState) {
    && ss.index <= |toks|
    && (ss.current.None? <==> ss.index == 0)
    && (ss.index > 0 ==> ss.current == Some(toks[ss.index - 1]))
  }

  /** `r` lies at or after `ss`; a state at the same index is the same state. */
  predicate Moves(toks: seq<Token>, ss: SState, r: SState) {
    Valid(toks, r) && ss.index <= r.index
  }

  lemma SameIndexSameState(toks: seq<Token>, a: SState, b: SState)
    requires Valid(toks, a) && Valid(toks, b) && a.index == b.index
    ensures a == b
  {
  }

  /** The current kind, when there is a current token. */
  predicate CurrentIs(ss: SState, kind: string) {
    ss.current.Some? && ss.current.value.kind == kind
  }

  // ---------------------------------------------------------------------
  // advance and match
  // ---------------------------------------------------------------------

  /**
   * `advance`: moves to the next token while one is left; at the end it
   * changes nothing, so `current` stays the last token.
   */
  function Advance(toks: seq<Token>, ss: SState): (r: SState)
    requires Valid(toks, ss)
    ensures Valid(toks, r)
    ensures ss.index < |toks| ==> r.index == ss.index + 1 && r.current == Some(toks[ss.index])
    ensures ss.index == |toks| ==> r == ss
  {
    if ss.index < |toks| then SState(ss.index + 1, Some(toks[ss.index])) else ss
  }

  /**
   * `match`: advances when the current kind is the expected one and
   * raises a syntax error naming both kinds otherwise; reading the kind of
   * a missing current token fails on its own.
   */
  function Match(toks: seq<Token>, ss: SState, expected: string): (r: Result<SState, Failure>)
    requires Valid(toks, ss)
    ensures r.Ok? <==> CurrentIs(ss, expected)
    ensures r.Ok? ==> r.value == Advance(toks, ss) && r.value.current.Some?
    ensures ss.current.None? ==> r == Err(NoCurrentToken)
    ensures ss.current.Some? && ss.current.value.kind != expected ==>
      r == Err(SyntaxError(expected, ss.current.value.kind))
  {
    if ss.current.Some? && ss.current.value.kind == expected then Ok(Advance(toks, ss))
    else if ss.current.None? then Err(NoCurrentToken)
    else Err(SyntaxError(expected, ss.current.value.kind))
  }

  // ---------------------------------------------------------------------
  // Expressions
  // ---------------------------------------------------------------------

  /** `expression`: delegates to `simple_expression`. */
  function Expression(toks: seq<Token>, ss: SState): (r: Result<Parsed, Failure>)
    requires Valid(toks, ss)
    ensures r.Ok? ==> Moves(toks, ss, r.value.next) && r.value.node.name == "Factor"
    decreases |toks| - ss.index, 4
  {
    SimpleExpression(toks, ss)
  }

  /** `simple_expression`: delegates to `term`. */
  function SimpleExpression(toks: seq<Token>, ss: SState): (r: Result<Parsed, Failure>)
    requires Valid(toks, ss)
    ensures r.Ok? ==> Moves(toks, ss, r.value.next) && r.value.node.name == "Factor"
    decreases |toks| - ss.index, 3
  {
    Term(toks, ss)
  }

  /** `term`: delegates to `factor`. */
  function Term(toks: seq<Token>, ss: SState): (r: Result<Parsed, Failure>)
    requires Valid(toks, ss)
    ensures r.Ok? ==> Moves(toks, ss, r.value.next) && r.value.node.name == "Factor"
    decreases |toks| - ss.index, 2
  {
    Factor(toks, ss)
  }

  predicate IsOperandKind(kind: string) {
    kind == "IDENTIFIER" || kind == "LITERAL_INTEGER" || kind == "LITERAL_DOUBLE"
  }

  /**
   * `factor`: an identifier or numeric literal becomes the node's single
   * token, a `'('` holds one nested expression, and any other kind gives an
   * empty node without consuming anything.
   */
  function Factor(toks: seq<Token>, ss: SState): (r: Result<Parsed, Failure>)
    requires Valid(toks, ss)
    ensures r.Ok? ==> Moves(toks, ss, r.value.next) && r.value.node.name == "Factor"
    ensures ss.current.None? ==> r == Err(NoCurrentToken)
    ensures ss.current.Some? && IsOperandKind(ss.current.value.kind) ==>
      r == Ok(Parsed(Node("Factor", [Leaf(ss.current.value)]), Advance(toks, ss)))
    ensures CurrentIs(ss, "(") && r.Ok? ==>
      && |r.value.node.items| == 1 && r.value.node.items[0].Child?
      && r.value.node.items[0].node.name == "Factor"
      && r.value.next.index > ss.index
    ensures CurrentIs(ss, "(") && ss.index < |toks| && r.Ok? ==>
      && Expression(toks, Advance(toks, ss)).Ok?
      && r.value.node.items == [Child(Expression(toks, Advance(toks, ss)).value.node)]
    ensures CurrentIs(ss, "(") && ss.index == |toks| ==> r == Err(RecursionLimit)
    ensures ss.current.Some? && !IsOperandKind(ss.current.value.kind) && !CurrentIs(ss, "(") ==>
      r == Ok(Parsed(Node("Factor", []), ss))
    decreases |toks| - ss.index, 1
  {
    if ss.current.None? then Err(NoCurrentToken)
    else
      var tok := ss.current.value;
      // The current kind is the one matched, so the first three matches succeed.
      if tok.kind == "IDENTIFIER" then
        Ok(Parsed(Node("Factor", [Leaf(tok)]), Match(toks, ss, "IDENTIFIER").value))
      else if tok.kind == "LITERAL_INTEGER" || tok.kind == "LITERAL_DOUBLE" then
        Ok(Parsed(Node("Factor", [Leaf(tok)]), Match(toks, ss, tok.kind).value))
      else if tok.kind == "(" then
        var s1 := Match(toks, ss, "(").value;
        if s1.index == ss.index then
          // At the last token `match` does not move, and `expression`
          // comes back here in the very same state.
          Err(RecursionLimit)
        else
          var e :- Expression(toks, s1);
          var s2 :- Match(toks, e.next, ")");
          Ok(Parsed(Node("Factor", [Child(e.node)]), s2))
      else
        Ok(Parsed(Node("Factor", []), ss))
  }

  // ---------------------------------------------------------------------
  // Statements
  // ---------------------------------------------------------------------

  predicate IsStatementStart(kind: string) {
    kind == "IDENTIFIER" || kind == "KEYWORD_OUTPUT" || kind == "KEYWORD_IF"
  }

  /** `assignment_statement`: identifier, `':='`, an expression, `';'`. */
  function AssignmentStatement(toks: seq<Token>, ss: SState): (r: Result<Parsed, Failure>)
    requires Valid(toks, ss)
    ensures r.Ok? ==> Moves(toks, ss, r.value.next) && r.value.next.index > ss.index
    ensures r.Ok? ==> r.value.node.name == "AssignmentStatement" && |r.value.node.items| == 1
    ensures r.Ok? ==> r.value.node.items[0].Child? && r.value.node.items[0].node.name == "Factor"
    ensures !CurrentIs(ss, "IDENTIFIER") ==> r.Err?
  {
    var s1 :- Match(toks, ss, "IDENTIFIER");
    var s2 :- Match(toks, s1, ":=");
    var e :- Expression(toks, s2);
    var s3 :- Match(toks, e.next, ";");
    Ok(Parsed(Node("AssignmentStatement", [Child(e.node)]), s3))
  }

  /** `output_params`: a string literal token, or else an expression. */
  function OutputParams(toks: seq<Token>, ss: SState): (r: Result<Parsed, Failure>)
    requires Valid(toks, ss)
    ensures r.Ok? ==> Moves(toks, ss, r.value.next)
    ensures r.Ok? ==> r.value.node.name == "OutputParams" && |r.value.node.items| == 1
    ensures ss.current.None? ==> r == Err(NoCurrentToken)
    ensures CurrentIs(ss, "LITERAL_STRING") ==>
      r == Ok(Parsed(Node("OutputParams", [Leaf(ss.current.value)]), Advance(toks, ss)))
    ensures ss.current.Some? && !CurrentIs(ss, "LITERAL_STRING") ==>
      && (r.Ok? <==> Expression(toks, ss).Ok?)
      && (r.Ok? ==> var e := Expression(toks, ss).value;
            r.value.node.items[0] == Child(e.node) && r.value.next == e.next)
  {
    if ss.current.None? then Err(NoCurrentToken)
    else if ss.current.value.kind == "LITERAL_STRING" then
      var tok := ss.current.value;
      Ok(Parsed(Node("OutputParams", [Leaf(tok)]), Match(toks, ss, "LITERAL_STRING").value))
    else
      var e :- Expression(toks, ss);
      Ok(Parsed(Node("OutputParams", [Child(e.node)]), e.next))
  }

  /** `output_statement`: `KEYWORD_OUTPUT`, `'<<'`, the parameters, `';'`. */
  function OutputStatement(toks: seq<Token>, ss: SState): (r: Result<Parsed, Failure>)
    requires Valid(toks, ss)
    ensures r.Ok? ==> Moves(toks, ss, r.value.next) && r.value.next.index > ss.index
    ensures r.Ok? ==> r.value.node.name == "OutputStatement" && |r.value.node.items| == 1
    ensures r.Ok? ==> r.value.node.items[0].Child? && r.value.node.items[0].node.name == "OutputParams"
    ensures !CurrentIs(ss, "KEYWORD_OUTPUT") ==> r.Err?
  {
    var s1 :- Match(toks, ss, "KEYWORD_OUTPUT");
    var s2 :- Match(toks, s1, "<<");
    var p :- OutputParams(toks, s2);
    var s3 :- Match(toks, p.next, ";");
    Ok(Parsed(Node("OutputStatement", [Child(p.node)]), s3))
  }

  /** The node a statement starting with `kind` nests inside its `Statement` node. */
  function StatementName(kind: string): string
  {
    if kind == "IDENTIFIER" then "AssignmentStatement"
    else if kind == "KEYWORD_OUTPUT" then "OutputStatement"
    else "IfStatement"
  }

  /**
   * `statement`: one nested node for an identifier, output or if
   * statement; an empty node, consuming nothing, for any other kind.
   */
  function Statement(toks: seq<Token>, ss: SState): (r: Result<Parsed, Failure>)
    requires Valid(toks, ss)
    ensures r.Ok? ==> Moves(toks, ss, r.value.next)
    ensures r.Ok? ==> r.value.node.name == "Statement" && |r.value.node.items| <= 1
    ensures ss.current.None? ==> r == Err(NoCurrentToken)
    ensures ss.current.Some? && IsStatementStart(ss.current.value.kind) && r.Ok? ==>
      && r.value.next.index > ss.index && |r.value.node.items| == 1
      && r.value.node.items[0].Child?
      && r.value.node.items[0].node.name == StatementName(ss.current.value.kind)
    ensures ss.current.Some? && !IsStatementStart(ss.current.value.kind) ==>
      r == Ok(Parsed(Node("Statement", []), ss))
    decreases |toks| - ss.index, 2
  {
    if ss.current.None? then Err(NoCurrentToken)
    else
      var kind := ss.current.value.kind;
      if kind == "IDENTIFIER" then
        var a :- AssignmentStatement(toks, ss);
        Ok(Parsed(Node("Statement", [Child(a.node)]), a.next))
      else if kind == "KEYWORD_OUTPUT" then
        var o :- OutputStatement(toks, ss);
        Ok(Parsed(Node("Statement", [Child(o.node)]), o.next))
      else if kind == "KEYWORD_IF" then
        var i :- IfStatement(toks, ss);
        Ok(Parsed(Node("Statement", [Child(i.node)]), i.next))
      else
        Ok(Parsed(Node("Statement", []), ss))
  }

  /**
   * `if_statement`: `KEYWORD_IF`, `'('`, the condition expression, `')'`,
   * then one nested statement; the node holds exactly the condition and
   * that statement.
   */
  function IfStatement(toks: seq<Token>, ss: SState): (r: Result<Parsed, Failure>)
    requires Valid(toks, ss)
    ensures r.Ok? ==> Moves(toks, ss, r.value.next) && r.value.next.index > ss.index
    ensures r.Ok? ==> var items := r.value.node.items;
      && r.value.node.name == "IfStatement" && |items| == 2
      && items[0].Child? && items[0].node.name == "Factor"
      && items[1].Child? && items[1].node.name == "Statement"
    ensures !CurrentIs(ss, "KEYWORD_IF") ==> r.Err?
    decreases |toks| - ss.index, 1
  {
    var s1 :- Match(toks, ss, "KEYWORD_IF");
    var s2 :- Match(toks, s1, "(");
    var e :- Expression(toks, s2);
    var s3 :- Match(toks, e.next, ")");
    var st :- Statement(toks, s3);
    Ok(Parsed(Node("IfStatement", [Child(e.node), Child(st.node)]), st.next))
  }

  /**
   * The `while self.current_token` loop of `statements`. Once a token is
   * current it stays current, so the loop ends only by an error, or never:
   * an iteration that consumes nothing leaves the state as it was and
   * repeats forever.
   */
  function StatementItems(toks: seq<Token>, ss: SState): (r: Result<Many, Failure>)
    requires Valid(toks, ss)
    ensures r.Ok? ==> ss.current.None? && r.value == Many([], ss)
    decreases |toks| - ss.index
  {
    if ss.current.Some? then
      var st :- Statement(toks, ss);
      if st.next.index == ss.index then Err(NoProgress)
      else
        match StatementItems(toks, st.next)
        case Err(f) => Err(f)
        case Ok(rest) => Ok(Many([Child(st.node)] + rest.items, rest.next))
    else
      Ok(Many([], ss))
  }

  /** `statements`: a `Statements` node around the loop's items. */
  function Statements(toks: seq<Token>, ss: SState): (r: Result<Parsed, Failure>)
    requires Valid(toks, ss)
    ensures r.Ok? <==> ss.current.None?
    ensures r.Ok? ==> r.value == Parsed(Node("Statements", []), ss)
  {
    var m :- StatementItems(toks, ss);
    Ok(Parsed(Node("Statements", m.items), m.next))
  }

  // ---------------------------------------------------------------------
  // Declarations and program
  // ---------------------------------------------------------------------

  /**
   * `declaration`: identifier, `':'`, `KEYWORD_INT`, `ENDLINE`; the node
   * holds the token current after the colon, which is the type keyword.
   */
  function Declaration(toks: seq<Token>, ss: SState): (r: Result<Parsed, Failure>)
    requires Valid(toks, ss)
    ensures r.Ok? ==> Moves(toks, ss, r.value.next) && r.value.next.index >= ss.index + 3
    ensures r.Ok? ==> var items := r.value.node.items;
      && r.value.node.name == "Declaration" && |items| == 1
      && items[0].Leaf? && items[0].token.kind == "KEYWORD_INT"
  {
    var s1 :- Match(toks, ss, "IDENTIFIER");
    var s2 :- Match(toks, s1, ":");
    var typ := s2.current.value;
    var s3 :- Match(toks, s2, "KEYWORD_INT");
    var s4 :- Match(toks, s3, "ENDLINE");
    Ok(Parsed(Node("Declaration", [Leaf(typ)]), s4))
  }

  /** Every item is a `Declaration` node holding one `KEYWORD_INT` token. */
  predicate AllDeclarations(items: seq<Item>) {
    forall i :: 0 <= i < |items| ==>
      && items[i].Child? && items[i].node.name == "Declaration"
      && |items[i].node.items| == 1 && items[i].node.items[0].Leaf?
      && items[i].node.items[0].token.kind == "KEYWORD_INT"
  }

  /** The `while` loop of `declarations`: it runs while the current kind is `IDENTIFIER`. */
  function DeclarationItems(toks: seq<Token>, ss: SState): (r: Result<Many, Failure>)
    requires Valid(toks, ss)
    ensures r.Ok? ==> Moves(toks, ss, r.value.next) && !CurrentIs(r.value.next, "IDENTIFIER")
    ensures r.Ok? ==> AllDeclarations(r.value.items)
    ensures !CurrentIs(ss, "IDENTIFIER") ==> r == Ok(Many([], ss))
    decreases |toks| - ss.index
  {
    if CurrentIs(ss, "IDENTIFIER") then
      var d :- Declaration(toks, ss);
      var rest :- DeclarationItems(toks, d.next);
      var items := [Child(d.node)] + rest.items;
      assert items[0] == Child(d.node);
      assert forall i :: 1 <= i < |items| ==> items[i] == rest.items[i - 1];
      Ok(Many(items, rest.next))
    else
      Ok(Many([], ss))
  }

  /** `declarations`: a `Declarations` node around the loop's items. */
  function Declarations(toks: seq<Token>, ss: SState): (r: Result<Parsed, Failure>)
    requires Valid(toks, ss)
    ensures r.Ok? ==> Moves(toks, ss, r.value.next) && !CurrentIs(r.value.next, "IDENTIFIER")
    ensures r.Ok? ==> r.value.node.name == "Declarations" && AllDeclarations(r.value.node.items)
    ensures ss.current.None? ==> r == Ok(Parsed(Node("Declarations", []), ss))
  {
    var m :- DeclarationItems(toks, ss);
    Ok(Parsed(Node("Declarations", m.items), m.next))
  }

  /**
   * `program`: a `Program` node with exactly two children, the
   * declarations and then the statements.
   */
  function Program(toks: seq<Token>, ss: SState): (r: Result<Parsed, Failure>)
    requires Valid(toks, ss)
    ensures r.Ok? ==> var items := r.value.node.items;
      && r.value.node.name == "Program" && |items| == 2
      && items[0].Child? && items[0].node.name == "Declarations"
      && items[1].Child? && items[1].node.name == "Statements"
  {
    var d :- Declarations(toks, ss);
    var s :- Statements(toks, d.next);
    Ok(Parsed(Node("Program", [Child(d.node), Child(s.node)]), s.next))
  }

  /** The state of a freshly constructed analyzer. */
  const Start := SState(0, None)
}

=== FILE: syntax_props.dfy ===
/**
 * What the AST-building parser guarantees beyond each rule's own
 * contract: the exact token shape a declaration accepts, the collapse of
 * the expression chain onto a single factor, the two ways the statements
 * loop can fail to stop, and the one state from which a program is built.
 */
module SyntaxProofs {
  import opened Common
  import opened Syntax

  /** The four tokens of a declaration, starting with the current token at `i - 1`. */
  predicate DeclarationShape(toks: seq<Token>, i: nat) {
    && 1 <= i && i + 2 < |toks|
    && toks[i - 1].kind == "IDENTIFIER"
    && toks[i].kind == ":"
    && toks[i + 1].kind == "KEYWORD_INT"
    && toks[i + 2].kind == "ENDLINE"
  }

  /**
   * `declaration` succeeds exactly on `IDENTIFIER ':' KEYWORD_INT ENDLINE`,
   * its node holds exactly the type token, and the cursor ends past the
   * `ENDLINE`, or on it when it is the last token.
   */
  lemma DeclarationAccepts(toks: seq<Token>, ss: SState)
    requires Valid(toks, ss)
    ensures Declaration(toks, ss).Ok? <==> DeclarationShape(toks, ss.index)
    ensures Declaration(toks, ss).Ok? ==>
      && Declaration(toks, ss).value.node == Node("Declaration", [Leaf(toks[ss.index + 1])])
      && Declaration(toks, ss).value.next.index == (if ss.index + 3 < |toks| then ss.index + 4 else ss.index + 3)
  {
    var i := ss.index;
    if CurrentIs(ss, "IDENTIFIER") {
      var s1 := Match(toks, ss, "IDENTIFIER").value;
      if i == |toks| {
        assert s1 == ss;
        assert Match(toks, s1, ":").Err?;
      } else if CurrentIs(s1, ":") {
        var s2 := Match(toks, s1, ":").value;
        if i + 1 == |toks| {
          assert s2 == s1;
          assert Match(toks, s2, "KEYWORD_INT").Err?;
        } else if CurrentIs(s2, "KEYWORD_INT") {
          var s3 := Match(toks, s2, "KEYWORD_INT").value;
          if i + 2 == |toks| {
            assert s3 == s2;
            assert Match(toks, s3, "ENDLINE").Err?;
          }
        }
      }
    }
  }

  /**
   * `expression`, `simple_expression` and `term` each parse exactly one
   * factor and nothing else.
   */
  lemma ExpressionIsFactor(toks: seq<Token>, ss: SState)
    requires Valid(toks, ss)
    ensures Expression(toks, ss) == Factor(toks, ss)
    ensures SimpleExpression(toks, ss) == Factor(toks, ss)
    ensures Term(toks, ss) == Factor(toks, ss)
  {
    assert Term(toks, ss) == Factor(toks, ss);
    assert SimpleExpression(toks, ss) == Term(toks, ss);
    assert Expression(toks, ss) == SimpleExpression(toks, ss);
  }

  /**
   * A `'('` that is the last token can never be followed: `match` leaves
   * the state as it is and `factor` would be entered again forever.
   */
  lemma ParenthesisAtEnd(toks: seq<Token>, ss: SState)
    requires Valid(toks, ss) && CurrentIs(ss, "(") && ss.index == |toks|
    ensures Factor(toks, ss) == Err(RecursionLimit)
  {
  }

  /**
   * With a current kind that starts no statement, `statement` returns an
   * empty node without consuming anything, so the `statements` loop spins
   * on the same state.
   */
  lemma StatementsSpin(toks: seq<Token>, ss: SState)
    requires Valid(toks, ss) && ss.current.Some? && !IsStatementStart(ss.current.value.kind)
    ensures Statements(toks, ss) == Err(NoProgress)
  {
  }

  /**
   * Once a token is current the `statements` loop cannot return normally,
   * so a `program` is built only from the freshly constructed state, where
   * no token has been read: it is then the empty program, and every other
   * state fails.
   */
  lemma ProgramOnlyFromStart(toks: seq<Token>, ss: SState)
    requires Valid(toks, ss)
    ensures Program(toks, ss).Ok? <==> ss == Start
    ensures Program(toks, ss).Ok? ==> (Program(toks, ss).value ==
      Parsed(Node("Program", [Child(Node("Declarations", [])), Child(Node("Statements", []))]), Start))
  {
    var d := Declarations(toks, ss);
    if ss.current.Some? && d.Ok? {
      assert d.value.next.current.Some?;
    }
  }

  /**
   * `assignment_statement` on an identifier: it accepts exactly when `':='`
   * follows, the factor after it parses, and `';'` is current after that
   * factor; the node then holds exactly that factor and the cursor moves
   * past the `';'`.
   */
  lemma AssignmentBuilds(toks: seq<Token>, ss: SState)
    requires Valid(toks, ss) && CurrentIs(ss, "IDENTIFIER")
    ensures var s1 := Advance(toks, ss);
      && (!CurrentIs(s1, ":=") ==> AssignmentStatement(toks, ss).Err?)
      && (CurrentIs(s1, ":=") ==>
            var f := Factor(toks, Advance(toks, s1));
            && (AssignmentStatement(toks, ss).Ok? <==> f.Ok? && CurrentIs(f.value.next, ";"))
            && (AssignmentStatement(toks, ss).Ok? ==>
                  AssignmentStatement(toks, ss).value ==
                  Parsed(Node("AssignmentStatement", [Child(f.value.node)]), Advance(toks, f.value.next))))
  {
    var s1 := Advance(toks, ss);
    if CurrentIs(s1, ":=") {
      ExpressionIsFactor(toks, Advance(toks, s1));
    }
  }

  /**
   * `if_statement` on `KEYWORD_IF`: it accepts exactly when `'('` follows,
   * the expression after it parses, `')'` is current after the expression,
   * and the statement after that parses; the node then holds exactly that
   * expression and that statement, in this order, and the cursor ends where
   * the statement ends. A failing expression or statement is passed on.
   */
  lemma IfBuilds(toks: seq<Token>, ss: SState)
    requires Valid(toks, ss) && CurrentIs(ss, "KEYWORD_IF")
    ensures var s1 := Advance(toks, ss);
      && (!CurrentIs(s1, "(") ==> IfStatement(toks, ss).Err?)
      && (CurrentIs(s1, "(") ==>
            var e := Expression(toks, Advance(toks, s1));
            && (e.Err? ==> IfStatement(toks, ss) == Err(e.error))
            && (e.Ok? && !CurrentIs(e.value.next, ")") ==> IfStatement(toks, ss).Err?)
            && (e.Ok? && CurrentIs(e.value.next, ")") ==>
                  var st := Statement(toks, Advance(toks, e.value.next));
                  && (st.Err? ==> IfStatement(toks, ss) == Err(st.error))
                  && (st.Ok? ==>
                        IfStatement(toks, ss) ==
                        Ok(Parsed(Node("IfStatement", [Child(e.value.node), Child(st.value.node)]), st.value.next)))))
  {
  }

  /**
   * `factor` on `'('` with a token after it: it accepts exactly when the
   * expression after the parenthesis parses and `')'` is current after it;
   * the node then holds exactly that expression, and the cursor moves past
   * the `')'`.
   */
  lemma ParenthesisBuilds(toks: seq<Token>, ss: SState)
    requires Valid(toks, ss) && CurrentIs(ss, "(") && ss.index < |toks|
    ensures var e := Expression(toks, Advance(toks, ss));
      && (Factor(toks, ss).Ok? <==> e.Ok? && CurrentIs(e.value.next, ")"))
      && (Factor(toks, ss).Ok? ==>
            Factor(toks, ss) == Ok(Parsed(Node("Factor", [Child(e.value.node)]), Advance(toks, e.value.next))))
  {
  }

  /**
   * `output_statement` on `KEYWORD_OUTPUT`: it accepts exactly when `'<<'`
   * follows, the parameters after it parse, and `';'` is current after
   * them; the node then holds exactly those parameters and the cursor moves
   * past the `';'`.
   */
  lemma OutputBuilds(toks: seq<Token>, ss: SState)
    requires Valid(toks, ss) && CurrentIs(ss, "KEYWORD_OUTPUT")
    ensures var s1 := Advance(toks, ss);
      && (!CurrentIs(s1, "<<") ==> OutputStatement(toks, ss).Err?)
      && (CurrentIs(s1, "<<") ==>
            var p := OutputParams(toks, Advance(toks, s1));
            && (OutputStatement(toks, ss).Ok? <==> p.Ok? && CurrentIs(p.value.next, ";"))
            && (OutputStatement(toks, ss).Ok? ==>
                  OutputStatement(toks, ss).value ==
                  Parsed(Node("OutputStatement", [Child(p.value.node)]), Advance(toks, p.value.next))))
  {
  }

  /** The statement rule that `statement` dispatches to on a statement-starting kind. */
  function Dispatched(toks: seq<Token>, ss: SState): Result<Parsed, Failure>
    requires Valid(toks, ss) && ss.current.Some?
  {
    match ss.current.value.kind
    case "IDENTIFIER" => AssignmentStatement(toks, ss)
    case "KEYWORD_OUTPUT" => OutputStatement(toks, ss)
    case _ => IfStatement(toks, ss)
  }

  /**
   * On a statement-starting kind, `statement` succeeds exactly when the
   * rule it dispatches to succeeds; it wraps that rule's node as its only
   * child, leaves the cursor where that rule left it, and passes a failure
   * on unchanged.
   */
  lemma StatementDispatch(toks: seq<Token>, ss: SState)
    requires Valid(toks, ss) && ss.current.Some? && IsStatementStart(ss.current.value.kind)
    ensures var sub := Dispatched(toks, ss);
      && (Statement(toks, ss).Ok? <==> sub.Ok?)
      && (sub.Ok? ==> Statement(toks, ss).value == Parsed(Node("Statement", [Child(sub.value.node)]), sub.value.next))
      && (sub.Err? ==> Statement(toks, ss) == Err(sub.error))
  {
  }

  /**
   * A statement that ends where it began has returned the very state it
   * started from, so the `statements` loop would run it again forever; the
   * model reports that loop as `NoProgress`.
   */
  lemma StalledStatementRepeats(toks: seq<Token>, ss: SState)
    requires Valid(toks, ss) && ss.current.Some?
    requires Statement(toks, ss).Ok? && Statement(toks, ss).value.next.index == ss.index
    ensures Statement(toks, ss).value.next == ss
    ensures StatementItems(toks, ss) == Err(NoProgress)
  {
    SameIndexSameState(toks, Statement(toks, ss).value.next, ss);
  }
}
